=== FILE: README.md ===
# NZXT lighting controllers: frame encoding, modelled in Dafny

This project models the byte-level core of `node-openrgb`, a Node.js driver
for two NZXT lighting controllers.

- **Colour codec** (`util.dfy`, module `Util`): `hexToGRB` turns `"#RRGGBB"`
  or `"RRGGBB"` into the three bytes both devices expect, green first. The
  pairs are read with the prefix rule of `parseInt(…, 16)`: a leading `0x` is
  dropped, the longest run of hex digits is read, and no digit at all gives NaN.
- **HUE+** (`hueplus.dfy`, module `Hue`): the serial command frames.
  - The fixed commands: on, off and clear.
  - The LED-count query.
  - `changeColor`: it validates, builds a 125-element array per colour from
    the header `switch` and 40 colour triples, and walks the colours of an
    array from a start index, asking for a fresh LED count before each frame.
    The array is modelled with JavaScript's holes, `undefined` and NaN, and the
    port sends it as `Buffer.from` bytes.
  - The device is a class whose `written` field logs the bytes of every
    command written to the port. What the device answers (LED-count replies
    and acks) comes in as parameters.
- **Smart Device** (`smartdevice.dfy`, module `Smart`): the HID side.
  - `changeColor`: it validates, writes two 125-byte reports per colour, and
    recurses over the colours of an array from a start index.
  - The eleven mode shortcuts built on `changeColor`.
  - `setFanSpeed`: its 65-byte fan frames.
  - The device is a class with a `written` log.
- **Shared values** (`common.dfy`, module `Common`): `Option`/`Result`, the
  argument shapes (a colour is a string or an array of strings; a mode is a
  name or a number), and the payload helpers `Repeat` and `Zeros`.

Each imperative routine of the source is a method proved against a
specification function:

| source routine | Dafny method |
|---|---|
| the header `switch` | `PushHeader` |
| the 40-iteration colour loops | `AppendColor`, `AccumulateColors` |
| `clear`'s zero loop | `Clear` |
| the fan loop | `SetFanSpeed` |
| the HUE+ recursion over colours | `SendFrames`, a recursive method |
| the Smart Device recursion over colours | `SendReports`, a recursive method |

| specification function | what it describes |
|---|---|
| `Frame`, `ReportsAt` | one frame, or one pair of reports |
| `Sent`, `Steps` | the whole sequence |
| `ChangeColorEffect` | what a whole call writes and how it ends |

Lemmas then state what the source promises about those functions.

## Behaviour kept as written

The model follows the code, including these quirks.

### HUE+

- `case modes.pulse, modes.breathing` is a comma expression, so it matches
  breathing only.
  - A pulse request (mode 6), or any numeric mode that no case matches,
    never has bytes 3 and 4 pushed. The array is then `[0x4B, channel, mode]`.
  - `buffer[4] += i * 0x20` then stores NaN (`undefined + i * 0x20`) at index
    4 and leaves a hole at index 3.
  - `Buffer.from` sends both as 0. So a pulse frame still goes out, with 0 in
    bytes 3 and 4, and the call settles on its ack like any other
    (`PulseFrameUnheaded`, `PulseStillSent`).
- The promise settles on the first frame's ack alone. Later frames go out
  whether or not that ack came, and their own results are lost.
- If the LED count or the colour of the first frame fails after validation,
  the promise never settles.
- `moving` is read only into a variable that is never used.
- Every frame fills all 40 colour slots with its colour. Nothing is padded
  with zeros past the zone's LED count (`FrameLayout`).
- Spectrum gets no special colour handling: its frame carries the colour
  passed in.
- Alternating needs an array (of any length up to 8); a string is refused.
- The LED count is the newest byte received once at least five have arrived
  (`LedCount`).

### Smart Device

- A non-custom array of more than 8 colours reaches `new "…"`. A string is
  not a constructor, so this throws a TypeError; it does not return an error.
- Wave without `custom` reaches `RangeMode(…)`, which is not defined, so it
  throws a ReferenceError.
- Every custom request is refused.
  - Line 77 needs exactly 40 colours.
  - Line 78 then compares the numeric mode with the strings "fixed",
    "breathing" and "wave", which never matches.
  - So the custom payload branch can never run, and `wave()` always writes
    nothing (`CustomAlwaysRejected`, `WaveWritesNothing`).
- The `"fixed"` term of byte 4 (`mode === "fixed" ? 0x02 : 0`) never applies,
  because the mode is numeric by then. `ReportOne` omits it.
- The length check before the writes always passes: both reports have 125
  bytes (`ReportLayout`).
- The recursive call passes `backwards` in the `moving` position and `moving`
  in the `backwards` position.
  - So the flag swaps at every step: colour j is drawn with the caller's
    `backwards` when j − i is even and the caller's `moving` when it is odd,
    for a call started at colour i.
  - `SwapAlternates` and `DirectionAlternates` prove this against a reference
    that fixes each colour's flag by parity.
- Only the mode *name* "spectrum" replaces the colour with `#0000ff`.
  `spectrum()` passes the number 2 and white, so white is kept
  (`SpectrumNameIgnoresColor`, `SpectrumSendsWhite`).
- Speed 0 and size 0 are accepted and become 1, so caller values 0 and 1 give
  the same report.
- An alternating request with a string colour is refused unless the string
  has exactly 2 characters. A 2-character string then fails in `hexToGRB`.
  Either way nothing is written (`AlternatingStringWritesNothing`).
- The shortcuts discard what `changeColor` returns, so only exceptions reach
  their caller.

### Colour codec

- A hex pair is read with `parseInt`'s prefix rule, so `"1z"` reads as 1.
- A pair that starts with `0x` reads as NaN.

## Model

| member | source | states |
|---|---|---|
| `Util.StripHash` | lib/util.js:3 | one leading `#` is removed; a string that does not start with `#` is kept as it is |
| `Util.ParseHex` | lib/util.js:5-7 | a pair read with `parseInt(…, 16)` gives a value below 16^n for n characters, or NaN |
| `Util.HexToGRB` | lib/util.js:2-13 | succeeds with three bytes in 0..255; fails with "Invalid hex specified." exactly when the string without one leading `#` is not 6 characters |
| `Util.ReadPair` | lib/util.js:5-7 | reads a two-character pair as `parseInt(…, 16)` does, always below 256; `PairValue` proves it agrees with the general reading |
| `Util.PairValue` | lib/util.js:5-7 | two hex digits read as 16·hi+lo; a digit followed by a non-digit reads as that digit; NaN exactly when the pair does not start with a digit or starts with `0x` |
| `Util.AcceptsExactly` | lib/util.js:3-11 | `hexToGRB` succeeds if and only if six characters remain and each pair is readable |
| `Util.DecodesGreenRedBlue` | lib/util.js:5-12 | six hex digits decode to [pair 2-3, pair 0-1, pair 4-5], i.e. green, red, blue |
| `Util.HashIsOptional` | lib/util.js:3-4 | a `#` in front of six characters that do not themselves start with `#` changes nothing |
| `Util.SecondHashRejected` | lib/util.js:3-4 | only one `#` is stripped: `##` plus five characters is refused as a bad code, `#` plus five as a bad length |
| `Util.RoundTrip` | lib/util.js:2-13 | encoding any colour as `RRGGBB` or `#RRGGBB` and decoding it gives [g, r, b] |
| `Common.ColorAt` | lib/HuePlus.js:162 | the colour of frame i: a string colour for every frame, entry i of an array, and nothing (`undefined`) past its end; the same expression is at lib/NZXT_SmartDevice.js:84 and :89 |
| `Common.HasNext` | lib/HuePlus.js:173 | frame i is followed by another exactly when the colour is an array with an entry at i + 1, and then frame i has a colour too; the same test is at lib/NZXT_SmartDevice.js:95 |
| `Common.FrameEnd` | lib/HuePlus.js:172-174 | the frames a call from `start` reaches end above `start`; for a palette, with `start` inside it, at its length; frame i is followed by another exactly when i + 1 is below the end |
| `Common.Repeat` | lib/HuePlus.js:161-163 | n copies of a triple have 3n bytes |
| `Common.RepeatTriple` | lib/HuePlus.js:161-163 | every slot of the 40 copies holds the colour |
| `Common.Zeros` | lib/NZXT_SmartDevice.js:163 | `Array(n).fill(0)` has n bytes, all zero |
| `Hue.ModeByName` | lib/HuePlus.js:4-15 | the HUE+ mode table: codes 0..12 without 8, 10 and 11; pulse is 6; there is no wave |
| `Hue.ResolveMode` | lib/HuePlus.js:113 | a number is kept whatever its value; a name goes through the table; only a name can fail to resolve |
| `Hue.Validate` | lib/HuePlus.js:111-119 | accepts exactly an array of at most 8 colours or a string, a known mode name or any number, channel 0..2, speed 1..5, size 1..4, and no string colour in alternating mode; keeps the arguments |
| `Hue.OnOffMirror` | lib/HuePlus.js:55-68 | on and off are 7-byte commands `[0x46,0,0xC0,0,0,a,b]` with (a,b) = (0,0xFF) and (0xFF,0) |
| `Hue.QueryChannel` | lib/HuePlus.js:122 | zone 0 is queried as zone 1; other zones as themselves |
| `Hue.LedCount` | lib/HuePlus.js:104-105 | the count is the newest reply byte, available exactly when five or more bytes arrived |
| `Hue.AdjustCount` | lib/HuePlus.js:123 | a positive count becomes the 0-based index of the last LED, one less; 0 stays 0 |
| `Hue.Header` | lib/HuePlus.js:125-160 | the first five elements: 0x4B, channel and mode, then the count byte and the speed byte + i·0x20 when a case matched, a hole and NaN when none did |
| `Hue.HasHeader` | lib/HuePlus.js:127-157 | the modes some case matches: never pulse, because `case modes.pulse, modes.breathing` matches breathing only, and always breathing |
| `Hue.SwitchMatchesTableButPulse` | lib/HuePlus.js:127-157 | some case matches exactly the modes of the table other than pulse |
| `Hue.CountByte` | lib/HuePlus.js:128-156 | byte 3 is the LED count, plus 10 exactly when a direction-aware mode (spectrum, marquee, covering marquee, alternating) runs backwards |
| `Hue.SpeedByte` | lib/HuePlus.js:128-156 | byte 4 before the offset: 0x02 for fixed, 0 for candle, speed + 8·size for marquee and alternating, speed otherwise; for 0-based speed 0..4 and size 0..3 it is in 0..28 |
| `Hue.PushHeader` | lib/HuePlus.js:125-157 | the switch pushes count and speed bytes by mode, and nothing for a mode no case matches |
| `Hue.AppendColor` | lib/HuePlus.js:161-163 | the loop appends 40 copies of the decoded colour, or fails with the codec's error |
| `Hue.FrameArray` | lib/HuePlus.js:122-163 | the array of frame i builds exactly when its colour is there and decodes, has 125 elements and starts with the header; otherwise the missing or undecodable colour is the error |
| `Hue.Frame` | lib/HuePlus.js:122-165 | the bytes written for frame i: 125 of them, each in 0..255, exactly when the array builds; otherwise the array's error |
| `Hue.Plus` | lib/HuePlus.js:160 | `+= n` adds n to a number, and gives NaN on `undefined` or NaN |
| `Hue.Load` | lib/HuePlus.js:160 | reading an index past the end gives `undefined` |
| `Hue.Store` | lib/HuePlus.js:160 | a store sets its index, keeps every other element, grows the array to reach the index, and leaves holes in between |
| `Hue.ByteOf` | lib/HuePlus.js:165 | an element becomes a byte in 0..255: a number in range is kept, `undefined` and NaN become 0 |
| `Hue.Bytes` | lib/HuePlus.js:165 | the buffer has one byte per element, each in 0..255 and equal to that element's byte |
| `Hue.FramePayload` | lib/HuePlus.js:161-163 | five header bytes and 40 copies of a triple are 125 bytes, byte k ≥ 5 holding component (k − 5) mod 3 |
| `Hue.BuildFrame` | lib/HuePlus.js:122-163 | the built array equals the frame specification: the header after `buffer[4] += i·0x20`, with a hole and NaN where no case matched, then the colour |
| `Hue.FrameLayout` | lib/HuePlus.js:125-165 | a frame that builds sends 125 bytes: `[0x4B, channel, mode]`, then the count byte and speed byte + i·0x20 (each mod 256) when a case matched, 0 and 0 when none did, then the colour in all 40 slots, with no padding |
| `Hue.FrameFailures` | lib/HuePlus.js:127-163 | whatever the mode, a frame builds exactly when its colour is there and decodes, and otherwise fails as a missing or bad colour |
| `Hue.PulseFrameUnheaded` | lib/HuePlus.js:148-165 | pulse matches no case, and its frame goes out with 0 in bytes 3 and 4 |
| `Hue.SpeedByteFits` | lib/HuePlus.js:116-160 | for a mode some case matches, valid speed and size, and a frame index i below 8, byte 4 is the speed byte + i·0x20 itself, at most 252 |
| `Hue.FrameAt` | lib/HuePlus.js:122-163 | frame i fails with an unavailable count when fewer than five reply bytes came; otherwise it is the frame built from the newest byte, 125 bytes when it builds |
| `Hue.SentFrom` | lib/HuePlus.js:121-176 | the commands from frame i on start with the query, are at most two per remaining frame, and include frame i, right after the query, exactly when it builds |
| `Hue.Sent` | lib/HuePlus.js:121-176 | what a validated request writes from frame `start`: the query for its zone first, at most two commands per frame, frame `start` second exactly when it builds |
| `Hue.Settlement` | lib/HuePlus.js:172-177 | the promise settles exactly when a frame was written, on frame `start`'s ack; otherwise it stays pending with the first frame's error |
| `Hue.ChangeColorEffect` | lib/HuePlus.js:110-180 | a refused call writes nothing and throws; a valid one writes `[0x8D, zone]` first (zone 0 asked as 1), never throws, and settles exactly when a frame went out |
| `Hue.SentEntries` | lib/HuePlus.js:122-176 | every command of a sequence is the LED-count query or a frame that was built; the first is the query |
| `Hue.AllSent` | lib/HuePlus.js:172-176 | when every frame builds, frame j goes out right after the j-th query, in order |
| `Hue.RecursionRevalidates` | lib/HuePlus.js:124-174 | the recursive call's `++speed`, `++size` and numeric mode validate to the same request |
| `Hue.SentShape` | lib/HuePlus.js:122-167 | every command written is the query for the zone or a 125-byte frame starting 0x4B, channel, mode (mod 256) |
| `Hue.AllFramesSent` | lib/HuePlus.js:122-176 | when every frame from `start` builds, 2(end − start) commands go out, frame j at 2(j − start) + 1 right after its own query |
| `Hue.SentRecurses` | lib/HuePlus.js:122-176 | a call from frame i writes the query, then frame i when it builds, then what the call for frame i + 1 writes when the palette goes on |
| `Hue.PulseStillSent` | lib/HuePlus.js:148-176 | a valid pulse request whose first frame builds writes the query, then a 125-byte frame with 0 in bytes 3 and 4, and settles on that frame's ack |
| `Hue.MovingIgnored` | lib/HuePlus.js:143-147 | `moving` changes neither what is written nor how the call ends |
| `Hue.AcksOnlySettle` | lib/HuePlus.js:172-177 | acks never change what is written; only the first frame's ack decides the outcome |
| `Hue.HuePlus.TurnOnLED` | lib/HuePlus.js:52-63 | writes the on command; resolves on ack |
| `Hue.HuePlus.TurnOffLED` | lib/HuePlus.js:65-77 | writes the off command; resolves on ack |
| `Hue.HuePlus.Clear` | lib/HuePlus.js:79-95 | writes 0x4B and 124 zeros, 125 bytes; resolves on ack |
| `Hue.HuePlus.GetLEDCount` | lib/HuePlus.js:97-108 | writes `[0x8D, channel mod 256]`, the bytes `Buffer.from` makes of the query, and yields the LED count of the reply |
| `Hue.LedQuery` | lib/HuePlus.js:100 | the query is 0x8D and a byte congruent to the channel modulo 256; a channel in 0..255 is sent as itself |
| `Hue.HuePlus.Write` | lib/HuePlus.js:165-167 | logs the bytes `Buffer.from` makes of the array |
| `Hue.HuePlus.SendFrame` | lib/HuePlus.js:122-167 | writes the query, then frame i and its bytes when it builds from the reply; otherwise yields the failure |
| `Hue.HuePlus.SendFrames` | lib/HuePlus.js:121-177 | the recursion from frame i writes exactly the sequence specification and settles on frame i's ack |
| `Hue.HuePlus.ChangeColor` | lib/HuePlus.js:110-180 | a whole call from frame `start`: throws before any write on a bad request, else writes the sequence and ends as its first frame decides |
| `Smart.ModeByName` | lib/NZXT_SmartDevice.js:7-19 | the Smart Device mode table: every entry is a mode code, and wave is 0x0D |
| `Smart.IsModeCode` | lib/NZXT_SmartDevice.js:68 | the numeric mode check: codes lie in 0..13, without 8, 10 and 11 |
| `Smart.IsThrown` | lib/NZXT_SmartDevice.js:64-84 | an error is returned, not thrown, exactly when it is one of the `new TypeError`/`new RangeError` values of lines 68, 70, 71, 76, 77 and 78; the size-limit `new "…"` of line 65, the undefined `RangeMode` of line 69 and `hexToGRB`'s throws at line 84 escape |
| `Smart.CodesAreNamed` | lib/NZXT_SmartDevice.js:7-19 | a number passes the mode check exactly when some mode name stands for it |
| `Smart.EffectiveColor` | lib/NZXT_SmartDevice.js:66 | the mode name "spectrum" makes the colour `#0000ff`; no other mode, and no numeric mode, changes it |
| `Smart.ResolveMode` | lib/NZXT_SmartDevice.js:67-68 | a resolved mode is one of the table's codes; a number resolves to itself exactly when it is one; a name resolves through the table |
| `Smart.BumpZero` | lib/NZXT_SmartDevice.js:72 | 0 becomes 1; other values are kept |
| `Smart.Validate` | lib/NZXT_SmartDevice.js:64-79 | accepts exactly a non-custom request with at most 8 colours, a known mode other than wave, speed 0..5, size 0..4, and no string colour of length ≠ 2 in alternating mode; the colour becomes blue for the name "spectrum"; speed and size land in 1..5 and 1..4 |
| `Smart.CustomAlwaysRejected` | lib/NZXT_SmartDevice.js:77-78 | every custom request fails; one with 40 colours, a mode that resolves and is not the name "spectrum", speed 0..5 and size 0..4 fails on its mode (`CustomModeNotAllowed`) |
| `Smart.SpectrumNameIgnoresColor` | lib/NZXT_SmartDevice.js:65-66 | with the name "spectrum", any two colours within the size limit validate alike, to blue |
| `Smart.ReportOne` | lib/NZXT_SmartDevice.js:88 | report 1 is 0x02, 0x4B, the mode, 0x10 exactly when backwards (else 0x00), i·0x20 over speed + 8·size, then the colour bytes unchanged |
| `Smart.ReportTwo` | lib/NZXT_SmartDevice.js:89 | report 2 is 0x03, the colour bytes, the colour once more and 0x00 |
| `Smart.ReportsAt` | lib/NZXT_SmartDevice.js:81-90 | colour i yields two 125-byte reports exactly when it is there and decodes |
| `Smart.AccumulateColors` | lib/NZXT_SmartDevice.js:81-86 | the loop yields 40 copies of the decoded colour, or the codec's error |
| `Smart.BuildReports` | lib/NZXT_SmartDevice.js:79-90 | the built reports equal the report specification |
| `Smart.ReportPair` | lib/NZXT_SmartDevice.js:88-90 | report 1 is the 5-byte header and 40 triples; report 2 is 0x03, the same 120 bytes, the colour and 0x00; both 125 bytes |
| `Smart.ReportLayout` | lib/NZXT_SmartDevice.js:81-90 | a colour's reports have that layout with 0-based speed and size, so the length check never fails |
| `Smart.ReportFailures` | lib/NZXT_SmartDevice.js:84-89 | a colour fails only by being missing or not decoding, whatever the direction flag |
| `Smart.OffsetByteFits` | lib/NZXT_SmartDevice.js:88 | for a colour index below 8, byte 4 stays in 0..252 |
| `Smart.Steps` | lib/NZXT_SmartDevice.js:92-96 | the recursion from colour i writes colour i's reports first; a failing colour i writes nothing and throws its error; finishing without an exception means colour i was built |
| `Smart.SwapAlternates` | lib/NZXT_SmartDevice.js:95-96 | swapping the flags at each call equals alternating them by colour parity |
| `Smart.RecursionRevalidates` | lib/NZXT_SmartDevice.js:79-96 | the recursive call validates to the same request |
| `Smart.ParityEntries` | lib/NZXT_SmartDevice.js:92-96 | every report written is one of the reports of some colour, drawn with its flag |
| `Smart.AllReportsCount` | lib/NZXT_SmartDevice.js:92-96 | when every colour from i on builds, nothing is thrown and two reports per colour go out |
| `Smart.ReportsPlaced` | lib/NZXT_SmartDevice.js:92-96 | when every colour from i on builds, colour j's two reports are written at 2(j − i) and 2(j − i) + 1 |
| `Smart.AllReportsSent` | lib/NZXT_SmartDevice.js:92-96 | when every colour from i on builds, colour j's two reports are at 2(j − i) and 2(j − i) + 1 and nothing is thrown |
| `Smart.StepsAlternate` | lib/NZXT_SmartDevice.js:92-96 | for any colour step that always gives two reports, the swapping recursion from `start` writes colour j's at 2(j − start) and 2(j − start) + 1 with the parity flag and throws nothing |
| `Smart.RequestAlternates` | lib/NZXT_SmartDevice.js:81-97 | for a validated request whose colours all decode, the recursion from `start` writes colour j's reports at 2(j − start) and 2(j − start) + 1, with `backwards` when j − start is even and `moving` when it is odd |
| `Smart.StepsFailures` | lib/NZXT_SmartDevice.js:84-96 | an exception that ends the recursion is the failure of some colour |
| `Smart.ChangeColorEffect` | lib/NZXT_SmartDevice.js:63-98 | a refused request writes nothing and throws exactly the errors JavaScript raises, returning the others; a returned error writes nothing; a call that completes was valid and wrote at least one pair of reports |
| `Smart.DirectionAlternates` | lib/NZXT_SmartDevice.js:63-98 | a call from `start` whose colours all decode writes two reports per colour, colour j's with `backwards` when j − start is even and `moving` when it is odd, and returns |
| `Smart.RefusedWritesNothing` | lib/NZXT_SmartDevice.js:64-93 | a refused request writes nothing; a valid one returns or throws only for a missing or bad colour |
| `Smart.AlternatingStringWritesNothing` | lib/NZXT_SmartDevice.js:76-84 | alternating with a string colour never writes a report |
| `Smart.FanFrame` | lib/NZXT_SmartDevice.js:163-167 | a fan frame is 65 bytes: 0x02, 0x4D, the fan index, 0, the percent, then 60 zeros |
| `Smart.FanWrites` | lib/NZXT_SmartDevice.js:158-170 | nothing exactly when fan or percent is out of range; three frames for fan 0, one otherwise; frame k is addressed to fan index k for fan 0 and to fan − 1 otherwise |
| `Smart.FanFramesShape` | lib/NZXT_SmartDevice.js:158-170 | fan frames have 65 bytes `[0x02,0x4D,index,0,percent]` and zeros; fan 0 addresses indices 0, 1 and 2, fan k index k − 1; nothing for bad arguments |
| `Smart.SmartDevice.SetFanSpeed` | lib/NZXT_SmartDevice.js:158-170 | writes exactly those frames; a bad fan is reported before a bad percent |
| `Smart.SmartDevice.SendReports` | lib/NZXT_SmartDevice.js:81-97 | the recursive calls from colour i, swapping the flags at each call, write exactly the recursion's reports and throw what it throws |
| `Smart.SmartDevice.WriteColor` | lib/NZXT_SmartDevice.js:81-94 | builds colour i's reports as specified and writes report 1 then report 2, or nothing when the colour is missing or does not decode |
| `Smart.SmartDevice.ChangeColor` | lib/NZXT_SmartDevice.js:63-98 | a whole call from colour `start`: refused requests write nothing and return or throw; valid ones write the recursion's reports |
| `Smart.SmartDevice.Fixed` | lib/NZXT_SmartDevice.js:100-102 | `changeColor(color, 0, 0, 0, false, false, custom)`, thrown errors only |
| `Smart.SmartDevice.Fading` | lib/NZXT_SmartDevice.js:104-106 | `changeColor(color, 1, speed)` with size 3 |
| `Smart.SmartDevice.Spectrum` | lib/NZXT_SmartDevice.js:108-110 | `changeColor("ffffff", 2, speed, 0, false, backwards)` |
| `Smart.SmartDevice.Marquee` | lib/NZXT_SmartDevice.js:112-114 | `changeColor(color, 3, speed, size, false, backwards)` |
| `Smart.SmartDevice.CoveringMarquee` | lib/NZXT_SmartDevice.js:116-118 | `changeColor(color, 4, speed, 0, false, backwards)` |
| `Smart.SmartDevice.Alternating` | lib/NZXT_SmartDevice.js:120-122 | `changeColor(color, 5, speed, size, moving, backwards)` |
| `Smart.SmartDevice.Pulse` | lib/NZXT_SmartDevice.js:124-126 | `changeColor(color, 6, speed)` with size 3 |
| `Smart.SmartDevice.Breathing` | lib/NZXT_SmartDevice.js:128-130 | `changeColor(color, 7, speed, 0, false, false, custom)` |
| `Smart.SmartDevice.Candle` | lib/NZXT_SmartDevice.js:132-134 | `changeColor(color, 9)` with speed and size 3 |
| `Smart.SmartDevice.Wings` | lib/NZXT_SmartDevice.js:136-138 | `changeColor(color, 0x0C, speed)` with size 3 |
| `Smart.SmartDevice.Wave` | lib/NZXT_SmartDevice.js:140-142 | writes nothing and throws nothing |
| `Smart.WaveWritesNothing` | lib/NZXT_SmartDevice.js:140-142 | `wave()` is refused with a returned error and writes nothing |
| `Smart.WhiteDecodes` | lib/NZXT_SmartDevice.js:109 | "ffffff" decodes to three 0xFF bytes |
| `Smart.WhitePair` | lib/NZXT_SmartDevice.js:88-89 | the reports of white hold 0xFF in every colour byte |
| `Smart.SpectrumEffect` | lib/NZXT_SmartDevice.js:108-110 | `spectrum()` validates, writes one pair of reports of its colour with 0-based speed and size 0, and returns |
| `Smart.SpectrumSendsWhite` | lib/NZXT_SmartDevice.js:108-110 | `spectrum()` writes one pair of 125-byte reports in white with the size byte of size 1, and returns |

## Left out

- Device discovery and the constructors (lib/HuePlus.js:20-49, lib/NZXT_SmartDevice.js:22-57): serial-port and HID enumeration are foreign I/O. The model's constructors only start an empty log.
- The transport itself: `write` and its error callback, the `data` listeners, `setTimeout` and the `wait-until` polling. Each wait is an input: the reply bytes for a count, a boolean for an ack. A missing entry means the wait gave up.
- The order in which promises settle across the asynchronous recursion is not modelled. The outcome is reduced to what the first frame decides.
- The serialport package is not part of this model. Its `write(array)` is taken to send `Buffer.from(array)`: each number modulo 256, `undefined` and NaN as 0. The HUE+ `written` log holds those bytes.
- Smart.SmartDevice.ChangeColor: node-hid is not part of this model, so its conversion of array elements to bytes is not applied. `written` holds the arrays handed to its `write`. Byte 4 of report 1 is i·0x20 + speed + 8·size, which exceeds 255 only for a start index i of 8 or more.
- Hue.HuePlus.ChangeColor, Smart.SmartDevice.ChangeColor: the trailing index `i` is a natural number; a negative or fractional `i` is not modelled.
- Util.HexToGRB: lengths are counted in characters. JavaScript's `length` counts UTF-16 code units, so a character outside the Basic Multilingual Plane counts twice there ("ff00f" followed by an emoji has length 7 in JavaScript and 6 here). Strings holding such characters are not modelled.
- Smart.Validate: the length check on an alternating string colour counts characters, not UTF-16 code units. A string holding a character outside the Basic Multilingual Plane is longer in JavaScript; such strings are not modelled.
- The RPM listener `on` (lib/NZXT_SmartDevice.js:144-156): it calls `util.decimalToHexString`, which does not exist in lib/util.js.
- lib/ErrorTypes.js and index.js: an error class and module wiring.
- JavaScript `typeof` checks. Arguments are typed: a colour is a string or an array of strings; a mode is a name or a number; speed, size, channel, fan and percent are integers; flags are booleans. So the "Invalid color", moving, backwards and custom type errors cannot arise, and non-integer numbers are not modelled.
- Mode names that are properties of `Object.prototype` (such as "toString") are treated as unknown names.
- `parseInt`'s tolerance of leading white space and of a `+`/`-` sign.
- The implicit global `i` written by the undeclared loop counter in `hexToGRB` (lib/util.js:9): nothing in the core reads it.
- The Smart Device's custom payload branch (lib/NZXT_SmartDevice.js:86) cannot be reached. Its only trace in the model is the refusal.

=== FILE: common.dfy ===
/**
 * Values shared by the colour codec and the two controller models: results,
 * the shapes of the JavaScript arguments a caller may pass, and the
 * byte-sequence helpers that describe frame payloads.
 */
module Common {

  datatype Option<+T> = None | Some(value: T)

  datatype Result<+T, +E> = Success(value: T) | Failure(error: E)

  /** The `color` argument of `changeColor`: one hex string, or an array of hex strings, one per frame. */
  datatype ColorArg = Hex(code: string) | Palette(codes: seq<string>)

  /** The `mode` argument: a name looked up in the device's `modes` table, or a number used as it is. */
  datatype ModeArg = Name(name: string) | Code(code: int)

  /** `typeof color === "string" ? color : color[i]`; an index past the end of the array reads `undefined` (None). */
  function ColorAt(color: ColorArg, i: nat): (c: Option<string>)
    ensures color.Hex? ==> c == Some(color.code)
    ensures color.Palette? ==> (c.Some? <==> i < |color.codes|)
    ensures c.Some? && color.Palette? ==> c.value == color.codes[i]
  {
    match color
    case Hex(s) => Some(s)
    case Palette(list) => if i < |list| then Some(list[i]) else None
  }

  /** `typeof color === "object" && i < color.length - 1`: frame `i` is followed by frame `i + 1`. */
  predicate HasNext(color: ColorArg, i: nat)
    ensures HasNext(color, i) <==> color.Palette? && ColorAt(color, i + 1).Some?
    ensures HasNext(color, i) ==> ColorAt(color, i).Some?
  {
    color.Palette? && i + 1 < |color.codes|
  }

  /**
   * One past the last frame index a sequence started at frame `start` can
   * reach: frame `start` is always attempted, even past the end of an array,
   * and each frame that has a next one leads to it.
   */
  function FrameEnd(color: ColorArg, start: nat): (k: nat)
    ensures k > start
    ensures color.Palette? && start < |color.codes| ==> k == |color.codes|
    ensures forall i: nat :: start <= i < k ==> (HasNext(color, i) <==> i + 1 < k)
  {
    if HasNext(color, start) then |color.codes| else start + 1
  }

  /** `n` copies of `s` back to back, built by appending `s` one copy at a time. */
  function Repeat(s: seq<int>, n: nat): (r: seq<int>)
    ensures |r| == n * |s|
  {
    if n == 0 then [] else Repeat(s, n - 1) + s
  }

  /** In `n` copies of a triple, slot `j` holds the triple. */
  lemma {:induction false} RepeatTriple(g: seq<int>, n: nat, j: nat, t: nat)
    requires |g| == 3 && j < n && t < 3
    ensures Repeat(g, n)[3 * j + t] == g[t]
  {
    if j < n - 1 {
      RepeatTriple(g, n - 1, j, t);
    }
  }

  /** Appending is associative. */
  lemma AppendAssoc<T>(a: seq<T>, b: seq<T>, c: seq<T>)
    ensures (a + b) + c == a + (b + c)
  {
  }

  /** `Array(n).fill(0x00)` */
  function Zeros(n: nat): (r: seq<int>)
    ensures |r| == n && forall j :: 0 <= j < n ==> r[j] == 0
  {
    seq(n, _ => 0)
  }
}

=== FILE: hueplus.dfy ===
/**
 * The NZXT HUE+ controller of lib/HuePlus.js: the serial command frames and
 * the `changeColor` sequencer. The serial port is a log of the commands
 * written to it; what the device answers (LED-count replies, acks) comes in
 * as parameters.
 */
module Hue {
  import opened Common
  import opened Util

  /** The `modes` table of the HUE+; it has no wave mode. */
  function ModeByName(name: string): (m: Option<int>)
    ensures m.Some? ==> 0 <= m.value <= 0x0c && m.value !in {0x08, 0x0a, 0x0b}
    ensures name == "wave" ==> m.None?
    ensures name == "pulse" ==> m == Some(0x06)
  {
    if name == "fixed" then Some(0x00)
    else if name == "fading" then Some(0x01)
    else if name == "spectrum" then Some(0x02)
    else if name == "marquee" then Some(0x03)
    else if name == "coveringMarquee" then Some(0x04)
    else if name == "alternating" then Some(0x05)
    else if name == "pulse" then Some(0x06)
    else if name == "breathing" then Some(0x07)
    else if name == "candle" then Some(0x09)
    else if name == "wings" then Some(0x0c)
    else None
  }

  /** `if (typeof mode !== "number") mode = modes[mode]`: a number is kept, whatever its value. */
  function ResolveMode(mode: ModeArg): (m: Option<int>)
    ensures mode.Code? ==> m == Some(mode.code)
    ensures mode.Name? ==> m == ModeByName(mode.name)
    ensures m.None? ==> mode.Name?
  {
    match mode
    case Name(n) => ModeByName(n)
    case Code(c) => Some(c)
  }

  datatype HueError =
    | TooManyColors           // "Max limit for color is 8"
    | InvalidMode             // "Invalid mode"
    | InvalidChannel          // "Channel must an integer between 0 and 2"
    | InvalidSpeed            // "Speed must be an integer between 1 and 5"
    | InvalidSize             // "Size must be an integer between 1 and 4"
    | AlternatingNeedsArray   // "Color must be an array for Alternating mode"
    | LedCountUnavailable     // getLEDCount rejects: fewer than five reply bytes
    | ColorMissing            // color[i] is undefined, so hexToGRB throws a TypeError
    | BadColor(e: CodecError) // hexToGRB throws

  /** A request that passed validation. Speed and size are still the caller's 1-based values; `moving` is not kept, because nothing reads it. */
  datatype Request = Request(color: ColorArg, mode: int, channel: int, speed: int, size: int, backwards: bool)

  /** How a `changeColor` call ends. */
  datatype Outcome =
    | Threw(error: HueError)       // thrown synchronously, before any I/O
    | Settled(resolved: bool)      // the promise resolves (true) or rejects (false) on the first frame's ack
    | Unsettled(error: HueError)   // the first frame never reached the port, so the promise never settles

  /** The checks `changeColor` makes before it touches the port, in the source's order. */
  function Validate(color: ColorArg, mode: ModeArg, channel: int, speed: int, size: int, backwards: bool)
    : (r: Result<Request, HueError>)
    ensures r.Success? <==>
      && (color.Palette? ==> |color.codes| <= 8)
      && ResolveMode(mode).Some?
      && 0 <= channel <= 2 && 1 <= speed <= 5 && 1 <= size <= 4
      && (color.Hex? ==> ResolveMode(mode) != Some(0x05))
    ensures r.Success? ==> r.value == Request(color, ResolveMode(mode).value, channel, speed, size, backwards)
  {
    if color.Palette? && |color.codes| > 8 then Failure(TooManyColors)
    else if ResolveMode(mode).None? then Failure(InvalidMode)
    else if channel < 0 || channel > 2 then Failure(InvalidChannel)
    else if speed < 1 || speed > 5 then Failure(InvalidSpeed)
    else if size < 1 || size > 4 then Failure(InvalidSize)
    else if color.Hex? && ResolveMode(mode).value == 0x05 then Failure(AlternatingNeedsArray)
    else Success(Request(color, ResolveMode(mode).value, channel, speed, size, backwards))
  }

  // ---------------------------------------------------------------------------
  // Constant commands and the LED count query

  const TurnOnCommand: seq<int> := [0x46, 0x00, 0xc0, 0x00, 0x00, 0x00, 0xff]
  const TurnOffCommand: seq<int> := [0x46, 0x00, 0xc0, 0x00, 0x00, 0xff, 0x00]

  /** The on and off commands differ only in their last two bytes, which trade places. */
  lemma OnOffMirror()
    ensures |TurnOnCommand| == |TurnOffCommand| == 7
    ensures TurnOnCommand[..5] == TurnOffCommand[..5] == [0x46, 0x00, 0xc0, 0x00, 0x00]
    ensures TurnOnCommand[5] == TurnOffCommand[6] == 0x00 && TurnOnCommand[6] == TurnOffCommand[5] == 0xff
  {
  }

  /**
   * `getLEDCount`'s query, `Buffer.from([0x8d, channel])`: the buffer keeps
   * the channel modulo 256, so 256 is sent as 0 and -1 as 255.
   */
  function LedQuery(channel: int): (q: seq<int>)
    ensures |q| == 2 && q[0] == 0x8d && 0 <= q[1] < 256
    ensures (q[1] - channel) % 256 == 0
    ensures 0 <= channel < 256 ==> q == [0x8d, channel]
  {
    [0x8d, channel % 256]
  }

  /** `channel === 0 ? channel + 1 : channel`: zone 0 is asked about as zone 1. */
  function QueryChannel(channel: int): (q: int)
    ensures 0 <= channel <= 2 ==> 1 <= q <= 2
    ensures channel != 0 ==> q == channel
  {
    if channel == 0 then 1 else channel
  }

  /**
   * What getLEDCount settles with, given the bytes that had accumulated when
   * the wait stopped: the newest of them once there are five, else a rejection.
   */
  function LedCount(reply: seq<int>): (r: Result<int, HueError>)
    ensures r.Success? <==> |reply| >= 5
    ensures r.Success? ==> r.value == reply[|reply| - 1]
  {
    if |reply| >= 5 then Success(reply[|reply| - 1]) else Failure(LedCountUnavailable)
  }

  /** `if (ledCount > 0) ledCount--`: the count becomes 0-based, and 0 stays 0. */
  function AdjustCount(raw: int): (n: int)
    ensures 0 <= raw ==> 0 <= n <= raw && (n == raw <==> raw == 0)
    ensures raw > 0 ==> n + 1 == raw
    ensures raw < 0 ==> n == raw
  {
    if raw > 0 then raw - 1 else raw
  }

  // ---------------------------------------------------------------------------
  // JavaScript arrays and the serial write

  /** An element of the JavaScript array a frame is built in: a number, `undefined` (what a hole reads as), or NaN. */
  datatype Value = Num(n: int) | Undefined | NaN

  /** `v + n` for a number `n`: `undefined + n` and `NaN + n` are NaN. */
  function Plus(v: Value, n: int): (w: Value)
    ensures w.Num? <==> v.Num?
    ensures w.Num? ==> w.n - n == v.n
  {
    if v.Num? then Num(v.n + n) else NaN
  }

  /** `a[k]`: an index past the end reads `undefined`. */
  function Load(a: seq<Value>, k: nat): (v: Value)
    ensures k < |a| ==> v == a[k]
    ensures k >= |a| ==> v == Undefined
  {
    if k < |a| then a[k] else Undefined
  }

  /** `a[k] = v`: a store past the end grows the array, and the slots it skips are holes. */
  function Store(a: seq<Value>, k: nat, v: Value): (b: seq<Value>)
    ensures |b| == if k < |a| then |a| else k + 1
    ensures b[k] == v
    ensures forall j :: 0 <= j < |a| && j != k ==> b[j] == a[j]
    ensures forall j :: |a| <= j < k ==> b[j] == Undefined
  {
    if k < |a| then a[k := v] else a + seq(k - |a|, _ => Undefined) + [v]
  }

  /** Numbers as array elements. */
  function Nums(s: seq<int>): (a: seq<Value>)
    ensures |a| == |s| && forall k :: 0 <= k < |s| ==> a[k] == Num(s[k])
  {
    seq(|s|, k requires 0 <= k < |s| => Num(s[k]))
  }

  /** `concat` of two arrays of numbers. */
  lemma NumsAppend(s: seq<int>, t: seq<int>)
    ensures Nums(s + t) == Nums(s) + Nums(t)
  {
    assert forall k :: 0 <= k < |s + t| ==> Nums(s + t)[k] == (Nums(s) + Nums(t))[k];
  }

  /** The byte a `Buffer` keeps of an element: a number modulo 256; `undefined` and NaN become 0. */
  function ByteOf(v: Value): (b: int)
    ensures 0 <= b < 256
    ensures v.Num? && 0 <= v.n < 256 ==> b == v.n
  {
    if v.Num? then v.n % 256 else 0
  }

  /** The bytes `port.write(array)` sends: the array through `Buffer.from`, one byte per element. */
  function Bytes(a: seq<Value>): (b: seq<int>)
    ensures |b| == |a| && forall k :: 0 <= k < |a| ==> 0 <= b[k] < 256 && b[k] == ByteOf(a[k])
  {
    seq(|a|, k requires 0 <= k < |a| => ByteOf(a[k]))
  }

  // ---------------------------------------------------------------------------
  // One colour frame

  /** The mode codes some case of the header `switch` matches. `case modes.pulse, modes.breathing` matches breathing only. */
  predicate HasHeader(mode: int)
    ensures HasHeader(mode) ==> mode != 0x06 && ModeByName("pulse") != Some(mode)
    ensures mode == 0x07 ==> HasHeader(mode)
  {
    mode in {0x00, 0x01, 0x02, 0x03, 0x04, 0x05, 0x07, 0x09, 0x0c}
  }

  /** Some case of the `switch` matches exactly the modes of the table other than pulse. */
  lemma SwitchMatchesTableButPulse(mode: int)
    ensures HasHeader(mode) <==> mode != 0x06 && exists name :: ModeByName(name) == Some(mode)
  {
    if HasHeader(mode) {
      var name :=
        if mode == 0x00 then "fixed" else if mode == 0x01 then "fading" else if mode == 0x02 then "spectrum"
        else if mode == 0x03 then "marquee" else if mode == 0x04 then "coveringMarquee" else if mode == 0x05 then "alternating"
        else if mode == 0x07 then "breathing" else if mode == 0x09 then "candle" else "wings";
      assert ModeByName(name) == Some(mode);
    }
  }

  /** Byte 3: the adjusted LED count, plus 10 when a direction-aware mode runs backwards. */
  function CountByte(mode: int, n: int, backwards: bool): (c: int)
    ensures c == n || c == n + 10
    ensures c == n + 10 <==> backwards && mode in {0x02, 0x03, 0x04, 0x05}
  {
    if backwards && mode in {0x02, 0x03, 0x04, 0x05} then n + 10 else n
  }

  /** Byte 4 before the frame offset: a constant for fixed and candle, speed plus 8 * size for marquee and alternating, speed otherwise. */
  function SpeedByte(mode: int, s: int, z: int): (v: int)
    ensures mode == 0x00 ==> v == 0x02
    ensures mode == 0x09 ==> v == 0x00
    ensures mode !in {0x00, 0x09} ==> v - s == (if mode in {0x03, 0x05} then 8 * z else 0)
    ensures 0 <= s <= 4 && 0 <= z <= 3 ==> 0 <= v <= 28
  {
    if mode == 0x00 then 0x02
    else if mode == 0x09 then 0x00
    else if mode in {0x03, 0x05} then s + 8 * z
    else s
  }

  /**
   * The first five elements of frame `i` after the `switch` and
   * `buffer[4] += i * 0x20`, from the 0-based LED count `n`. When no case
   * matched, the array is [0x4B, channel, mode]: the store at index 4 leaves
   * a hole at index 3 and puts `undefined + i * 0x20`, NaN, at index 4.
   */
  function Header(req: Request, n: int, i: nat): (h: seq<Value>)
    ensures |h| == 5 && h[..3] == Nums([0x4b, req.channel, req.mode])
    ensures HasHeader(req.mode) <==> h[3].Num?
    ensures HasHeader(req.mode) ==>
      h[3] == Num(CountByte(req.mode, n, req.backwards))
      && h[4] == Num(SpeedByte(req.mode, req.speed - 1, req.size - 1) + i * 0x20)
    ensures !HasHeader(req.mode) ==> h[3] == Undefined && h[4] == NaN
  {
    if HasHeader(req.mode) then
      Nums([0x4b, req.channel, req.mode, CountByte(req.mode, n, req.backwards),
            SpeedByte(req.mode, req.speed - 1, req.size - 1) + i * 0x20])
    else Nums([0x4b, req.channel, req.mode]) + [Undefined, NaN]
  }

  /**
   * The array frame `i` is built in, given the LED count the device
   * reported: the header, then 40 copies of the frame's colour in device
   * order. Only the colour can stop it: `hexToGRB` throws, the `switch` does
   * not.
   */
  function FrameArray(req: Request, raw: int, i: nat): (r: Result<seq<Value>, HueError>)
    ensures r.Success? <==> ColorAt(req.color, i).Some? && HexToGRB(ColorAt(req.color, i).value).Success?
    ensures r.Success? ==> |r.value| == 125 && r.value[..5] == Header(req, AdjustCount(raw), i)
    ensures r.Failure? && ColorAt(req.color, i).None? ==> r.error == ColorMissing
    ensures r.Failure? && ColorAt(req.color, i).Some? ==> r.error == BadColor(HexToGRB(ColorAt(req.color, i).value).error)
  {
    match ColorAt(req.color, i)
    case None => Failure(ColorMissing)
    case Some(c) =>
      match HexToGRB(c)
      case Failure(e) => Failure(BadColor(e))
      case Success(grb) => Success(Header(req, AdjustCount(raw), i) + Nums(Repeat(grb, 40)))
  }

  /** The bytes frame `i` puts on the serial line. */
  function Frame(req: Request, raw: int, i: nat): (r: Result<seq<int>, HueError>)
    ensures r.Success? <==> FrameArray(req, raw, i).Success?
    ensures r.Failure? ==> r.error == FrameArray(req, raw, i).error
    ensures r.Success? ==> |r.value| == 125 && forall k :: 0 <= k < |r.value| ==> 0 <= r.value[k] < 256
  {
    match FrameArray(req, raw, i)
    case Failure(e) => Failure(e)
    case Success(a) => Success(Bytes(a))
  }

  /**
   * The header `switch`: the bytes pushed after [0x4B, channel, mode], from
   * the 0-based LED count, speed and size; `matched` is false when no case
   * applies and nothing is pushed.
   */
  method PushHeader(req: Request, ledCount: int, speed: int, size: int) returns (buffer: seq<int>, matched: bool)
    ensures matched <==> HasHeader(req.mode)
    ensures matched ==> buffer == [0x4b, req.channel, req.mode, CountByte(req.mode, ledCount, req.backwards),
                                   SpeedByte(req.mode, speed, size)]
    ensures !matched ==> buffer == [0x4b, req.channel, req.mode]
  {
    buffer := [0x4b, req.channel, req.mode];
    matched := true;
    if req.mode == 0x00 {
      buffer := buffer + [ledCount, 0x02];
    } else if req.mode == 0x01 {
      buffer := buffer + [ledCount, speed];
    } else if req.mode == 0x02 {
      buffer := buffer + [if req.backwards then ledCount + 10 else ledCount, speed];
    } else if req.mode == 0x03 {
      buffer := buffer + [if req.backwards then ledCount + 10 else ledCount, speed + size * 8];
    } else if req.mode == 0x04 {
      buffer := buffer + [if req.backwards then ledCount + 10 else ledCount, speed];
    } else if req.mode == 0x05 {
      // the `_ledCount` shifted by `moving` is computed and never used
      buffer := buffer + [if req.backwards then ledCount + 10 else ledCount, speed + size * 8];
    } else if req.mode == 0x07 {
      buffer := buffer + [ledCount, speed];
    } else if req.mode == 0x09 {
      buffer := buffer + [ledCount, 0x00];
    } else if req.mode == 0x0c {
      buffer := buffer + [ledCount, speed];
    } else {
      matched := false;
    }
  }

  /** `for (x = 0; x < 40; x++) buffer = buffer.concat(util.hexToGRB(c))`: the colour, in device order, in each of the 40 slots. */
  method AppendColor(buffer: seq<Value>, c: string) returns (r: Result<seq<Value>, HueError>)
    ensures HexToGRB(c).Failure? ==> r == Failure(BadColor(HexToGRB(c).error))
    ensures HexToGRB(c).Success? ==> r == Success(buffer + Nums(Repeat(HexToGRB(c).value, 40)))
  {
    ghost var g := if HexToGRB(c).Success? then HexToGRB(c).value else [];
    var out := buffer;
    var x := 0;
    while x < 40
      invariant 0 <= x <= 40
      invariant x > 0 ==> HexToGRB(c).Success?
      invariant out == buffer + Nums(Repeat(g, x))
    {
      var grb := HexToGRB(c);
      if grb.Failure? {
        return Failure(BadColor(grb.error));
      }
      NumsAppend(Repeat(g, x), g);
      assert Repeat(g, x + 1) == Repeat(g, x) + g;
      out := out + Nums(grb.value);
      x := x + 1;
    }
    return Success(out);
  }

  /** The body of the `.then` callback up to the write: rebasing, the header, `buffer[4] += i * 0x20` and the colour payload. */
  method BuildFrame(req: Request, raw: int, i: nat) returns (r: Result<seq<Value>, HueError>)
    ensures r == FrameArray(req, raw, i)
  {
    var ledCount := raw;
    if ledCount > 0 {
      ledCount := ledCount - 1;
    }
    var speed, size := req.speed - 1, req.size - 1;
    var pushed, matched := PushHeader(req, ledCount, speed, size);
    var buffer := Nums(pushed);
    buffer := Store(buffer, 4, Plus(Load(buffer, 4), i * 0x20));
    assert buffer == Header(req, ledCount, i);
    var c := ColorAt(req.color, i);
    if c.None? {
      return Failure(ColorMissing);
    }
    r := AppendColor(buffer, c.value);
  }

  /** Five header elements and 40 copies of a colour triple make 125 bytes on the line, byte k >= 5 holding component (k - 5) % 3. */
  lemma FramePayload(header: seq<Value>, grb: seq<int>)
    requires |header| == 5 && |grb| == 3 && forall t :: 0 <= t < 3 ==> 0 <= grb[t] < 256
    ensures var f := Bytes(header + Nums(Repeat(grb, 40)));
      && |f| == 125 && f[..5] == Bytes(header)
      && forall k :: 5 <= k < 125 ==> f[k] == grb[(k - 5) % 3]
  {
    var a := header + Nums(Repeat(grb, 40));
    var f := Bytes(a);
    forall k | 5 <= k < 125
      ensures f[k] == grb[(k - 5) % 3]
    {
      RepeatTriple(grb, 40, (k - 5) / 3, (k - 5) % 3);
      assert a[k] == Num(Repeat(grb, 40)[k - 5]);
    }
    assert f[..5] == Bytes(header);
  }

  /**
   * A frame that is built has 125 bytes: 0x4B, the channel and the mode,
   * bytes 3 and 4 from the header table (0 where no case matched, for the
   * hole and the NaN), then the colour in every one of the 40 slots.
   */
  lemma FrameLayout(req: Request, raw: int, i: nat)
    requires Frame(req, raw, i).Success?
    ensures ColorAt(req.color, i).Some? && HexToGRB(ColorAt(req.color, i).value).Success?
    ensures var f, grb := Frame(req, raw, i).value, HexToGRB(ColorAt(req.color, i).value).value;
      && |f| == 125
      && f[..3] == [0x4b, req.channel % 256, req.mode % 256]
      && f[3] == (if HasHeader(req.mode) then CountByte(req.mode, AdjustCount(raw), req.backwards) % 256 else 0)
      && f[4] == (if HasHeader(req.mode) then (SpeedByte(req.mode, req.speed - 1, req.size - 1) + i * 0x20) % 256 else 0)
      && forall k :: 5 <= k < 125 ==> f[k] == grb[(k - 5) % 3]
  {
    var header := Header(req, AdjustCount(raw), i);
    FramePayload(header, HexToGRB(ColorAt(req.color, i).value).value);
  }

  /** Whatever the mode, a frame fails only when its colour is missing or does not decode. */
  lemma FrameFailures(req: Request, raw: int, i: nat)
    ensures Frame(req, raw, i).Success? <==> ColorAt(req.color, i).Some? && HexToGRB(ColorAt(req.color, i).value).Success?
    ensures Frame(req, raw, i).Failure? ==> Frame(req, raw, i).error.ColorMissing? || Frame(req, raw, i).error.BadColor?
  {
  }

  /** `case modes.pulse, modes.breathing` never matches pulse: a pulse frame still goes out, with 0 in bytes 3 and 4 where the hole and the NaN were. */
  lemma PulseFrameUnheaded(req: Request, raw: int, i: nat)
    requires req.mode == 0x06 && Frame(req, raw, i).Success?
    ensures !HasHeader(req.mode)
    ensures |Frame(req, raw, i).value| == 125 && Frame(req, raw, i).value[3] == 0 && Frame(req, raw, i).value[4] == 0
  {
    FrameLayout(req, raw, i);
  }

  /** For a validated request and at most 8 frames, byte 4 is the header value itself, at most 252: the frame offset never wraps around a byte. */
  lemma SpeedByteFits(req: Request, raw: int, i: nat)
    requires 1 <= req.speed <= 5 && 1 <= req.size <= 4 && i < 8 && HasHeader(req.mode)
    requires Frame(req, raw, i).Success?
    ensures Frame(req, raw, i).value[4] == SpeedByte(req.mode, req.speed - 1, req.size - 1) + i * 0x20 <= 252
  {
    FrameLayout(req, raw, i);
  }

  // ---------------------------------------------------------------------------
  // The multi-frame sequence

  /** The LED-count reply for frame `i`; a missing one is a wait that gave up. */
  function ReplyAt(replies: seq<seq<int>>, i: nat): seq<int>
  {
    if i < |replies| then replies[i] else []
  }

  /** Whether the wait after frame `i` saw the ack byte 1; a missing one is a timeout. */
  function AckAt(acks: seq<bool>, i: nat): bool
  {
    i < |acks| && acks[i]
  }

  /** Frame `i` as the sequence builds it: from a fresh LED count. */
  function FrameAt(req: Request, replies: seq<seq<int>>, i: nat): (r: Result<seq<int>, HueError>)
    ensures |ReplyAt(replies, i)| < 5 ==> r == Failure(LedCountUnavailable)
    ensures |ReplyAt(replies, i)| >= 5 ==> r == Frame(req, ReplyAt(replies, i)[|ReplyAt(replies, i)| - 1], i)
    ensures r.Success? ==> |r.value| == 125
  {
    match LedCount(ReplyAt(replies, i))
    case Failure(e) => Failure(e)
    case Success(raw) => Frame(req, raw, i)
  }

  /** What building each frame a sequence started at `start` can reach gives, frame by frame. */
  function Frames(req: Request, start: nat, replies: seq<seq<int>>): (fs: seq<Result<seq<int>, HueError>>)
    ensures |fs| == FrameEnd(req.color, start)
    ensures forall j: nat :: j < |fs| ==> fs[j] == FrameAt(req, replies, j)
  {
    seq(FrameEnd(req.color, start), j requires 0 <= j => FrameAt(req, replies, j))
  }

  /**
   * The commands written from frame `i` on, given what building each frame
   * gives: the LED count query, then the frame, then the next frame whatever
   * the ack was. The first frame that cannot be built ends the sequence.
   */
  function SentFrom(query: seq<int>, frames: seq<Result<seq<int>, HueError>>, i: nat): (s: seq<seq<int>>)
    requires i < |frames|
    ensures 1 <= |s| <= 2 * (|frames| - i) && s[0] == query
    ensures |s| >= 2 <==> frames[i].Success?
    ensures frames[i].Success? ==> s[1] == frames[i].value
    decreases |frames| - i
  {
    match frames[i]
    case Failure(_) => [query]
    case Success(f) => [query, f] + if i + 1 < |frames| then SentFrom(query, frames, i + 1) else []
  }

  /** Every command of a sequence is the query or a frame that was built, and it starts with the query. */
  lemma {:induction false} SentEntries(query: seq<int>, frames: seq<Result<seq<int>, HueError>>, i: nat)
    requires i < |frames|
    ensures |SentFrom(query, frames, i)| >= 1 && SentFrom(query, frames, i)[0] == query
    ensures forall e :: e in SentFrom(query, frames, i) ==>
      e == query || exists j :: i <= j < |frames| && frames[j] == Success(e)
    decreases |frames| - i
  {
    if frames[i].Success? && i + 1 < |frames| {
      SentEntries(query, frames, i + 1);
    }
  }

  /** When every frame can be built, frame j goes out as command 2j + 1, right after its own query. */
  lemma {:induction false} AllSent(query: seq<int>, frames: seq<Result<seq<int>, HueError>>, i: nat)
    requires i < |frames|
    requires forall j :: i <= j < |frames| ==> frames[j].Success?
    ensures |SentFrom(query, frames, i)| == 2 * (|frames| - i)
    ensures forall j :: i <= j < |frames| && frames[j].Success? ==>
      SentFrom(query, frames, i)[2 * (j - i)] == query && SentFrom(query, frames, i)[2 * (j - i) + 1] == frames[j].value
    decreases |frames| - i
  {
    var sent, f := SentFrom(query, frames, i), frames[i].value;
    if i + 1 < |frames| {
      AllSent(query, frames, i + 1);
      var rest := SentFrom(query, frames, i + 1);
      assert sent == [query, f] + rest;
      forall j | i <= j < |frames|
        ensures sent[2 * (j - i)] == query && sent[2 * (j - i) + 1] == frames[j].value
      {
        if j == i {
          assert sent[0] == query && sent[1] == f;
        } else {
          var k := 2 * (j - (i + 1));
          assert 2 * (j - i) == k + 2;
          assert rest[k] == query && rest[k + 1] == frames[j].value;
          assert sent[k + 2] == rest[k] && sent[k + 3] == rest[k + 1];
        }
      }
    } else {
      assert sent == [query, f];
    }
  }

  /** The commands a validated request writes, from frame `start` on. */
  function Sent(req: Request, start: nat, replies: seq<seq<int>>): (s: seq<seq<int>>)
    ensures 1 <= |s| <= 2 * (FrameEnd(req.color, start) - start) && s[0] == LedQuery(QueryChannel(req.channel))
    ensures |s| >= 2 <==> FrameAt(req, replies, start).Success?
    ensures FrameAt(req, replies, start).Success? ==> s[1] == FrameAt(req, replies, start).value
  {
    SentFrom(LedQuery(QueryChannel(req.channel)), Frames(req, start, replies), start)
  }

  /**
   * What a call from frame `i` writes, in the shape of the recursion: the
   * query, then, when frame `i` can be built, the frame and, when the palette
   * has a colour after `i`, what the call for frame `i + 1` writes.
   */
  lemma SentRecurses(req: Request, i: nat, replies: seq<seq<int>>)
    ensures HasNext(req.color, i) ==> FrameEnd(req.color, i + 1) == FrameEnd(req.color, i)
    ensures FrameAt(req, replies, i).Failure? ==> Sent(req, i, replies) == [LedQuery(QueryChannel(req.channel))]
    ensures FrameAt(req, replies, i).Success? && !HasNext(req.color, i) ==>
      Sent(req, i, replies) == [LedQuery(QueryChannel(req.channel)), FrameAt(req, replies, i).value]
    ensures FrameAt(req, replies, i).Success? && HasNext(req.color, i) ==>
      Sent(req, i, replies) == [LedQuery(QueryChannel(req.channel)), FrameAt(req, replies, i).value] + Sent(req, i + 1, replies)
  {
    var frames := Frames(req, i, replies);
    assert frames[i] == FrameAt(req, replies, i);
    if HasNext(req.color, i) {
      assert Frames(req, i + 1, replies) == frames;
    }
  }

  /** What a whole `changeColor` call writes, and how it ends. */
  datatype Effect = Effect(log: seq<seq<int>>, outcome: Outcome)

  function ChangeColorEffect(color: ColorArg, mode: ModeArg, channel: int, speed: int, size: int,
                             backwards: bool, moving: bool, start: nat,
                             replies: seq<seq<int>>, acks: seq<bool>): (e: Effect)
    ensures Validate(color, mode, channel, speed, size, backwards).Failure? ==>
      e == Effect([], Threw(Validate(color, mode, channel, speed, size, backwards).error))
    ensures Validate(color, mode, channel, speed, size, backwards).Success? ==>
      && |e.log| >= 1 && e.log[0] == [0x8d, if channel == 0 then 1 else channel]
      && (e.outcome.Settled? <==> |e.log| >= 2)
      && !e.outcome.Threw?
  {
    match Validate(color, mode, channel, speed, size, backwards)
    case Failure(e) => Effect([], Threw(e))
    case Success(req) =>
      Effect(Sent(req, start, replies), Settlement(req, start, replies, acks))
  }

  /** How the promise of a validated request ends: the first frame's ack settles it; no first frame, no settlement. */
  function Settlement(req: Request, start: nat, replies: seq<seq<int>>, acks: seq<bool>): (o: Outcome)
    ensures o.Settled? <==> |Sent(req, start, replies)| >= 2
    ensures o.Settled? ==> o.resolved == AckAt(acks, start)
    ensures !o.Settled? ==> o == Unsettled(FrameAt(req, replies, start).error)
  {
    match FrameAt(req, replies, start)
    case Failure(e) => Unsettled(e)
    case Success(_) => Settled(AckAt(acks, start))
  }

  /** The recursive call gets `++speed` and `++size` after `speed -= 1; size -= 1` and a numeric mode, so it validates to the same request. */
  lemma RecursionRevalidates(color: ColorArg, mode: ModeArg, channel: int, speed: int, size: int, backwards: bool, req: Request)
    requires Validate(color, mode, channel, speed, size, backwards) == Success(req)
    ensures Validate(req.color, Code(req.mode), req.channel, (req.speed - 1) + 1, (req.size - 1) + 1, req.backwards) == Success(req)
  {
  }

  /** Every command a request writes is the LED count query for its zone or a 125-byte frame for its channel and mode. */
  lemma SentShape(req: Request, start: nat, replies: seq<seq<int>>)
    ensures |Sent(req, start, replies)| >= 1 && Sent(req, start, replies)[0] == LedQuery(QueryChannel(req.channel))
    ensures forall e :: e in Sent(req, start, replies) ==>
      e == LedQuery(QueryChannel(req.channel)) || (|e| == 125 && e[..3] == [0x4b, req.channel % 256, req.mode % 256])
  {
    var query, frames := LedQuery(QueryChannel(req.channel)), Frames(req, start, replies);
    SentEntries(query, frames, start);
    forall e | e in Sent(req, start, replies) && e != query
      ensures |e| == 125 && e[..3] == [0x4b, req.channel % 256, req.mode % 256]
    {
      var j :| start <= j < |frames| && frames[j] == Success(e);
      var raw := LedCount(ReplyAt(replies, j)).value;
      FrameLayout(req, raw, j);
    }
  }

  /** When every frame can be built, all of them go out, frame j right after its own LED count query. */
  lemma AllFramesSent(req: Request, start: nat, replies: seq<seq<int>>)
    requires forall j: nat :: start <= j < FrameEnd(req.color, start) ==> FrameAt(req, replies, j).Success?
    ensures |Sent(req, start, replies)| == 2 * (FrameEnd(req.color, start) - start)
    ensures forall j: nat :: start <= j < FrameEnd(req.color, start) && FrameAt(req, replies, j).Success? ==>
      Sent(req, start, replies)[2 * (j - start)] == LedQuery(QueryChannel(req.channel))
      && Sent(req, start, replies)[2 * (j - start) + 1] == FrameAt(req, replies, j).value
  {
    var query, frames := LedQuery(QueryChannel(req.channel)), Frames(req, start, replies);
    AllSent(query, frames, start);
    forall j: nat | start <= j < |frames|
      ensures Sent(req, start, replies)[2 * (j - start)] == query
      ensures Sent(req, start, replies)[2 * (j - start) + 1] == FrameAt(req, replies, j).value
    {
      assert frames[j].Success?;
    }
  }

  /**
   * A pulse request is sent like any other: when the LED count and the
   * colour of its first frame are there, that frame goes out right after the
   * query, with 0 in bytes 3 and 4, and the promise settles on its ack.
   */
  lemma PulseStillSent(color: ColorArg, channel: int, speed: int, size: int, backwards: bool, moving: bool,
                       start: nat, replies: seq<seq<int>>, acks: seq<bool>)
    requires Validate(color, Name("pulse"), channel, speed, size, backwards).Success?
    requires LedCount(ReplyAt(replies, start)).Success?
    requires ColorAt(color, start).Some? && HexToGRB(ColorAt(color, start).value).Success?
    ensures var e := ChangeColorEffect(color, Name("pulse"), channel, speed, size, backwards, moving, start, replies, acks);
      && |e.log| >= 2 && e.log[0] == LedQuery(QueryChannel(channel))
      && |e.log[1]| == 125 && e.log[1][3] == 0 && e.log[1][4] == 0
      && e.outcome == Settled(AckAt(acks, start))
  {
    var req := Validate(color, Name("pulse"), channel, speed, size, backwards).value;
    var raw := LedCount(ReplyAt(replies, start)).value;
    PulseFrameUnheaded(req, raw, start);
    var query, frames := LedQuery(QueryChannel(channel)), Frames(req, start, replies);
    assert frames[start] == Frame(req, raw, start);
    assert SentFrom(query, frames, start)[..2] == [query, Frame(req, raw, start).value];
  }

  /** `moving` never changes what is written or how the call ends. */
  lemma MovingIgnored(color: ColorArg, mode: ModeArg, channel: int, speed: int, size: int, backwards: bool,
                      start: nat, replies: seq<seq<int>>, acks: seq<bool>)
    ensures ChangeColorEffect(color, mode, channel, speed, size, backwards, true, start, replies, acks)
         == ChangeColorEffect(color, mode, channel, speed, size, backwards, false, start, replies, acks)
  {
  }

  /** The acks decide only how the promise settles: the next frame is sent whether or not the previous one was acknowledged. */
  lemma AcksOnlySettle(color: ColorArg, mode: ModeArg, channel: int, speed: int, size: int, backwards: bool,
                       moving: bool, start: nat, replies: seq<seq<int>>, acks1: seq<bool>, acks2: seq<bool>)
    ensures ChangeColorEffect(color, mode, channel, speed, size, backwards, moving, start, replies, acks1).log
         == ChangeColorEffect(color, mode, channel, speed, size, backwards, moving, start, replies, acks2).log
    ensures AckAt(acks1, start) == AckAt(acks2, start) ==>
      ChangeColorEffect(color, mode, channel, speed, size, backwards, moving, start, replies, acks1)
        == ChangeColorEffect(color, mode, channel, speed, size, backwards, moving, start, replies, acks2)
  {
  }

  // ---------------------------------------------------------------------------
  // The device

  class HuePlus {
    /** Every command written to the serial port, as the bytes sent, oldest first. */
    var written: seq<seq<int>>

    constructor ()
      ensures written == []
    {
      written := [];
    }

    /** `turnOnLED`: write the on command; the promise resolves when the device answers 1. */
    method TurnOnLED(ack: bool) returns (resolved: bool)
      modifies this
      ensures written == old(written) + [TurnOnCommand]
      ensures resolved == ack
    {
      written := written + [TurnOnCommand];
      resolved := ack;
    }

    /** `turnOffLED`: write the off command; the promise resolves when the device answers 1. */
    method TurnOffLED(ack: bool) returns (resolved: bool)
      modifies this
      ensures written == old(written) + [TurnOffCommand]
      ensures resolved == ack
    {
      written := written + [TurnOffCommand];
      resolved := ack;
    }

    /** `clear`: 0x4B followed by 124 zero bytes, pushed one at a time. */
    method Clear(ack: bool) returns (resolved: bool)
      modifies this
      ensures written == old(written) + [[0x4b] + Zeros(124)]
      ensures |written[|written| - 1]| == 125
      ensures resolved == ack
    {
      var buffer := [0x4b];
      var i := 0;
      while i < 124
        invariant 0 <= i <= 124
        invariant buffer == [0x4b] + Zeros(i)
      {
        buffer := buffer + [0x00];
        i := i + 1;
        assert Zeros(i) == Zeros(i - 1) + [0];
      }
      written := written + [buffer];
      resolved := ack;
    }

    /** `getLEDCount`: write the query, then read the newest reply byte once five have arrived. */
    method GetLEDCount(channel: int, reply: seq<int>) returns (r: Result<int, HueError>)
      modifies this
      ensures written == old(written) + [LedQuery(channel)]
      ensures r == LedCount(reply)
    {
      written := written + [LedQuery(channel)];
      var output := reply;
      if |output| >= 5 {
        r := Success(output[|output| - 1]);
      } else {
        r := Failure(LedCountUnavailable);
      }
    }

    /** `port.write(buffer)` for an array built by `changeColor`: the port sends `Buffer.from(buffer)`. */
    method Write(buffer: seq<Value>)
      modifies this
      ensures written == old(written) + [Bytes(buffer)]
    {
      written := written + [Bytes(buffer)];
    }

    /**
     * `changeColor`: validate, then send the frames from frame `start` (the
     * trailing `i` argument) on. `replies[i]` and `acks[i]` are what the
     * device answered around frame i.
     */
    method ChangeColor(color: ColorArg, mode: ModeArg, channel: int, speed: int, size: int,
                       backwards: bool, moving: bool, start: nat, replies: seq<seq<int>>, acks: seq<bool>)
      returns (outcome: Outcome)
      modifies this
      ensures var e := ChangeColorEffect(color, mode, channel, speed, size, backwards, moving, start, replies, acks);
        written == old(written) + e.log && outcome == e.outcome
    {
      var v := Validate(color, mode, channel, speed, size, backwards);
      if v.Failure? {
        return Threw(v.error);
      }
      outcome := SendFrames(v.value, start, replies, acks);
    }

    /** One step of the sequence: query the LED count for the zone, build frame `i` from the reply and write it. */
    method SendFrame(req: Request, replies: seq<seq<int>>, i: nat) returns (frame: Result<seq<int>, HueError>)
      modifies this
      ensures frame == FrameAt(req, replies, i)
      ensures frame.Failure? ==> written == old(written) + [LedQuery(QueryChannel(req.channel))]
      ensures frame.Success? ==> written == old(written) + [LedQuery(QueryChannel(req.channel)), frame.value]
    {
      var count := GetLEDCount(QueryChannel(req.channel), ReplyAt(replies, i));
      if count.Failure? {
        return Failure(count.error);
      }
      var built := BuildFrame(req, count.value, i);
      if built.Failure? {
        return Failure(built.error);
      }
      Write(built.value);
      frame := Success(Bytes(built.value));
    }

    /**
     * The frames of a validated request from frame `i` on, following the
     * recursion of `changeColor`: query the LED count, build frame `i` and
     * write it, then, when the palette has a colour after `i`, make the call
     * for frame `i + 1`. The first frame that cannot be built ends the
     * sequence. Frame `i`'s ack settles the call; the promise of the
     * recursive call settles one that is already settled, so its outcome is
     * dropped.
     */
    method SendFrames(req: Request, i: nat, replies: seq<seq<int>>, acks: seq<bool>) returns (outcome: Outcome)
      modifies this
      ensures written == old(written) + Sent(req, i, replies)
      ensures outcome == Settlement(req, i, replies, acks)
      decreases FrameEnd(req.color, i) - i
    {
      SentRecurses(req, i, replies);
      var frame := SendFrame(req, replies, i);
      if frame.Failure? {
        return Unsettled(frame.error);
      }
      if HasNext(req.color, i) {
        var next := SendFrames(req, i + 1, replies, acks);
        AppendAssoc(old(written), [LedQuery(QueryChannel(req.channel)), frame.value], Sent(req, i + 1, replies));
      }
      outcome := Settled(AckAt(acks, i));
    }
  }
}

=== FILE: smartdevice.dfy ===
/**
 * The NZXT Smart Device of lib/NZXT_SmartDevice.js: the two 125-byte HID
 * reports `changeColor` writes per colour, the recursion over the colours of
 * an array, the mode shortcuts built on it, and the fan-speed frames. The
 * HID handle is a log of the reports written to it.
 */
module Smart {
  import opened Common
  import opened Util

  /** The `modes` table of the Smart Device: the HUE+ modes and wave. */
  function ModeByName(name: string): (m: Option<int>)
    ensures m.Some? ==> IsModeCode(m.value)
    ensures name == "wave" ==> m == Some(0x0d)
  {
    if name == "fixed" then Some(0x00)
    else if name == "fading" then Some(0x01)
    else if name == "spectrum" then Some(0x02)
    else if name == "marquee" then Some(0x03)
    else if name == "coveringMarquee" then Some(0x04)
    else if name == "alternating" then Some(0x05)
    else if name == "pulse" then Some(0x06)
    else if name == "breathing" then Some(0x07)
    else if name == "candle" then Some(0x09)
    else if name == "wings" then Some(0x0c)
    else if name == "wave" then Some(0x0d)
    else None
  }

  /** `Object.values(modes).includes(mode)` for a numeric mode. */
  predicate IsModeCode(c: int)
    ensures IsModeCode(c) ==> 0 <= c <= 0x0d && c !in {0x08, 0x0a, 0x0b}
  {
    c in {0x00, 0x01, 0x02, 0x03, 0x04, 0x05, 0x06, 0x07, 0x09, 0x0c, 0x0d}
  }

  /** A numeric mode passes the `Object.values(modes)` check exactly when some name of the table stands for it. */
  lemma CodesAreNamed(c: int)
    ensures IsModeCode(c) <==> exists name :: ModeByName(name) == Some(c)
  {
    if IsModeCode(c) {
      var name :=
        if c == 0x00 then "fixed" else if c == 0x01 then "fading" else if c == 0x02 then "spectrum"
        else if c == 0x03 then "marquee" else if c == 0x04 then "coveringMarquee" else if c == 0x05 then "alternating"
        else if c == 0x06 then "pulse" else if c == 0x07 then "breathing" else if c == 0x09 then "candle"
        else if c == 0x0c then "wings" else "wave";
      assert ModeByName(name) == Some(c);
    }
  }

  datatype SmartError =
    | TooManyColors          // `new "Max limit ..."`: a string is not a constructor, so a TypeError is thrown
    | InvalidMode            // "Invalid mode"
    | WaveNeedsCustom        // `RangeMode(...)` is not defined, so a ReferenceError is thrown
    | InvalidSpeed           // "Speed must be an integer between 1 and 5"
    | InvalidSize            // "Size must be an integer between 1 and 4"
    | AlternatingNeedsTwo    // "Color must be an array of 2 colors for Alternating mode"
    | CustomNeedsForty       // "Color must be an array of 40 colors when using a custom preset"
    | CustomModeNotAllowed   // "Custom preset is only allowed for Fixed, Breathing, and Wave modes"
    | ColorMissing           // color[i] is undefined, so hexToGRB throws a TypeError
    | BadColor(e: CodecError) // hexToGRB throws

  /** The errors that escape as exceptions; the others are Error objects `changeColor` returns. */
  predicate IsThrown(e: SmartError)
    ensures !IsThrown(e) <==>
      e.InvalidMode? || e.InvalidSpeed? || e.InvalidSize? || e.AlternatingNeedsTwo? || e.CustomNeedsForty? || e.CustomModeNotAllowed?
  {
    e.TooManyColors? || e.WaveNeedsCustom? || e.ColorMissing? || e.BadColor?
  }

  /** How a `changeColor` call ends. */
  datatype Outcome =
    | Done                    // returns undefined
    | Returned(error: SmartError)
    | Thrown(error: SmartError)

  /** A request that passed validation: the colour after the "spectrum" substitution, the numeric mode, and speed and size after a 0 was bumped to 1. */
  datatype Request = Request(color: ColorArg, mode: int, speed: int, size: int)

  /** `if (mode === "spectrum") color = "#0000ff"` */
  function EffectiveColor(color: ColorArg, mode: ModeArg): (c: ColorArg)
    ensures mode == Name("spectrum") ==> c == Hex("#0000ff")
    ensures c != color ==> mode == Name("spectrum")
    ensures mode.Code? ==> c == color
  {
    if mode == Name("spectrum") then Hex("#0000ff") else color
  }

  /** `typeof mode !== "number" ? modes[mode] : mode`, kept only when it is one of the table's codes. */
  function ResolveMode(mode: ModeArg): (m: Option<int>)
    ensures m.Some? ==> IsModeCode(m.value)
    ensures mode.Code? ==> (m.Some? <==> IsModeCode(mode.code)) && (m.Some? ==> m.value == mode.code)
    ensures mode.Name? ==> m == ModeByName(mode.name)
  {
    match mode
    case Name(n) => ModeByName(n)
    case Code(c) => if IsModeCode(c) then Some(c) else None
  }

  /** `if (speed === 0) speed++`, and the same for size. */
  function BumpZero(v: int): (w: int)
    ensures v == 0 ==> w == 1
    ensures v != 0 ==> w == v
  {
    if v == 0 then 1 else v
  }

  /** The checks of `changeColor`, in the source's order. */
  function Validate(color: ColorArg, mode: ModeArg, speed: int, size: int, custom: bool): (r: Result<Request, SmartError>)
    ensures custom ==> r.Failure?
    ensures r.Success? <==>
      && !custom
      && (color.Palette? ==> |color.codes| <= 8)
      && ResolveMode(mode).Some?
      && ResolveMode(mode).value != 0x0d
      && 0 <= speed <= 5 && 0 <= size <= 4
      && !(EffectiveColor(color, mode).Hex? && ResolveMode(mode).value == 0x05 && |EffectiveColor(color, mode).code| != 2)
    ensures r.Success? ==>
      && r.value.color == EffectiveColor(color, mode)
      && r.value.mode == ResolveMode(mode).value && IsModeCode(r.value.mode)
      && 1 <= r.value.speed <= 5 && (speed != 0 ==> r.value.speed == speed)
      && 1 <= r.value.size <= 4 && (size != 0 ==> r.value.size == size)
  {
    var c := EffectiveColor(color, mode);
    var m := ResolveMode(mode);
    if color.Palette? && |color.codes| > 8 && !custom then Failure(TooManyColors)
    else if m.None? then Failure(InvalidMode)
    else if !custom && m.value == 0x0d then Failure(WaveNeedsCustom)
    else if speed < 0 || speed > 5 then Failure(InvalidSpeed)
    else if size < 0 || size > 4 then Failure(InvalidSize)
    else if c.Hex? && m.value == 0x05 && |c.code| != 2 then Failure(AlternatingNeedsTwo)
    else if custom && (!c.Palette? || |c.codes| != 40) then Failure(CustomNeedsForty)
    // the numeric mode is compared with the names "fixed", "breathing" and "wave"
    else if custom then Failure(CustomModeNotAllowed)
    else Success(Request(c, m.value, BumpZero(speed), BumpZero(size)))
  }

  /** The custom branch can never be taken: a custom request fails, and one that gets past the colour-count check fails on its mode. */
  lemma CustomAlwaysRejected(color: ColorArg, mode: ModeArg, speed: int, size: int)
    ensures Validate(color, mode, speed, size, true).Failure?
    ensures color.Palette? && |color.codes| == 40 && mode != Name("spectrum") && ResolveMode(mode).Some?
            && 0 <= speed <= 5 && 0 <= size <= 4 ==>
      Validate(color, mode, speed, size, true) == Failure(CustomModeNotAllowed)
  {
  }

  /**
   * Naming the mode "spectrum" replaces any colour with blue. The size limit
   * on an array is checked first, on the caller's colour, so a long array is
   * still refused.
   */
  lemma SpectrumNameIgnoresColor(color1: ColorArg, color2: ColorArg, speed: int, size: int)
    requires !(color1.Palette? && |color1.codes| > 8) && !(color2.Palette? && |color2.codes| > 8)
    ensures Validate(color1, Name("spectrum"), speed, size, false) == Validate(color2, Name("spectrum"), speed, size, false)
    ensures Validate(color1, Name("spectrum"), speed, size, false).Success? ==>
      Validate(color1, Name("spectrum"), speed, size, false).value.color == Hex("#0000ff")
  {
  }

  // ---------------------------------------------------------------------------
  // The two reports of one colour

  /** Report 1: [0x02, 0x4B, mode, direction, i * 0x20 + speed + 8 * size] and the 120 colour bytes; speed and size are 0-based here. */
  function ReportOne(mode: int, backwards: bool, i: nat, speed: int, size: int, colors: seq<int>): (r: seq<int>)
    ensures |r| == 5 + |colors| && r[5..] == colors
    ensures r[..3] == [0x02, 0x4b, mode]
    ensures r[3] == 0x10 <==> backwards
    ensures r[3] == 0x00 <==> !backwards
    ensures r[4] - i * 0x20 == speed + 8 * size
  {
    [0x02, 0x4b, mode, if backwards then 0x10 else 0x00, i * 0x20 + speed + size * 8] + colors
  }

  /** Report 2: 0x03, the 120 colour bytes, the colour once more, and 0x00. */
  function ReportTwo(colors: seq<int>, grb: seq<int>): (r: seq<int>)
    ensures |r| == |colors| + |grb| + 2
    ensures r[0] == 0x03 && r[|r| - 1] == 0x00
    ensures r[1..|colors| + 1] == colors && r[|colors| + 1..|r| - 1] == grb
  {
    [0x03] + colors + grb + [0x00]
  }

  /** The two reports for colour `i`, in writing order; `backwards` is the flag this step of the recursion received. */
  function ReportsAt(req: Request, i: nat, backwards: bool): (r: Result<seq<seq<int>>, SmartError>)
    ensures r.Success? <==> ColorAt(req.color, i).Some? && HexToGRB(ColorAt(req.color, i).value).Success?
    ensures r.Success? ==> |r.value| == 2 && |r.value[0]| == 125 && |r.value[1]| == 125
  {
    match ColorAt(req.color, i)
    case None => Failure(ColorMissing)
    case Some(c) =>
      match HexToGRB(c)
      case Failure(e) => Failure(BadColor(e))
      case Success(grb) =>
        var colors := Repeat(grb, 40);
        Success([ReportOne(req.mode, backwards, i, req.speed - 1, req.size - 1, colors), ReportTwo(colors, grb)])
  }

  /** The 40-iteration `concat` loop: the colour, in device order, in each of the 40 slots. */
  method AccumulateColors(c: string) returns (r: Result<seq<int>, SmartError>)
    ensures HexToGRB(c).Failure? ==> r == Failure(BadColor(HexToGRB(c).error))
    ensures HexToGRB(c).Success? ==> r == Success(Repeat(HexToGRB(c).value, 40))
  {
    ghost var decoded := HexToGRB(c);
    var colors := [];
    var x := 0;
    while x < 40
      invariant 0 <= x <= 40
      invariant x > 0 ==> decoded.Success?
      invariant colors == if x == 0 then [] else Repeat(decoded.value, x)
    {
      var grb := HexToGRB(c);
      if grb.Failure? {
        return Failure(BadColor(grb.error));
      }
      colors := colors + grb.value;
      x := x + 1;
    }
    return Success(colors);
  }

  /** One step of `changeColor` after validation, up to the writes: rebasing, the colours, `buffer` and `buffer2`. */
  method BuildReports(req: Request, i: nat, backwards: bool) returns (r: Result<seq<seq<int>>, SmartError>)
    ensures r == ReportsAt(req, i, backwards)
  {
    var speed, size := req.speed - 1, req.size - 1;
    var c := ColorAt(req.color, i);
    if c.None? {
      return Failure(ColorMissing);
    }
    var colors := AccumulateColors(c.value);
    if colors.Failure? {
      return Failure(colors.error);
    }
    var buffer := [0x02, 0x4b, req.mode, if backwards then 0x10 else 0x00, i * 0x20 + speed + size * 8] + colors.value;
    var grb := HexToGRB(c.value);
    var buffer2 := [0x03] + colors.value + grb.value + [0x00];
    r := Success([buffer, buffer2]);
  }

  /** The two reports for one colour triple: 125 bytes each, the header, the colour in all 40 slots of report 1, and report 2 repeating those slots before the colour and 0x00. */
  lemma ReportPair(mode: int, backwards: bool, i: nat, speed: int, size: int, grb: seq<int>)
    requires |grb| == 3
    ensures var colors := Repeat(grb, 40);
      var r1, r2 := ReportOne(mode, backwards, i, speed, size, colors), ReportTwo(colors, grb);
      && |r1| == 125 && |r2| == 125
      && r1[..5] == [0x02, 0x4b, mode, if backwards then 0x10 else 0x00, i * 0x20 + speed + 8 * size]
      && (forall k :: 5 <= k < 125 ==> r1[k] == grb[(k - 5) % 3])
      && r2[0] == 0x03 && r2[1..121] == r1[5..] && r2[121..124] == grb && r2[124] == 0x00
  {
    var colors := Repeat(grb, 40);
    var r1, r2 := ReportOne(mode, backwards, i, speed, size, colors), ReportTwo(colors, grb);
    forall k | 5 <= k < 125
      ensures r1[k] == grb[(k - 5) % 3]
    {
      RepeatTriple(grb, 40, (k - 5) / 3, (k - 5) % 3);
    }
    assert r2[1..121] == colors == r1[5..];
  }

  /**
   * Both reports of a colour that decodes have 125 bytes, so the length
   * check that guards the writes always passes. Report 1 carries the header
   * and the colour in all 40 slots; report 2 repeats those slots, then the
   * colour and 0x00.
   */
  lemma ReportLayout(req: Request, i: nat, backwards: bool)
    requires ReportsAt(req, i, backwards).Success?
    ensures ColorAt(req.color, i).Some? && HexToGRB(ColorAt(req.color, i).value).Success?
    ensures var rs, grb := ReportsAt(req, i, backwards).value, HexToGRB(ColorAt(req.color, i).value).value;
      && |rs| == 2 && |rs[0]| == 125 && |rs[1]| == 125
      && rs[0][..5] == [0x02, 0x4b, req.mode, if backwards then 0x10 else 0x00, i * 0x20 + (req.speed - 1) + 8 * (req.size - 1)]
      && (forall k :: 5 <= k < 125 ==> rs[0][k] == grb[(k - 5) % 3])
      && rs[1][0] == 0x03 && rs[1][1..121] == rs[0][5..] && rs[1][121..124] == grb && rs[1][124] == 0x00
  {
    var grb := HexToGRB(ColorAt(req.color, i).value).value;
    ReportPair(req.mode, backwards, i, req.speed - 1, req.size - 1, grb);
  }

  /** A colour that cannot be written is missing or does not decode; `backwards` plays no part in it. */
  lemma ReportFailures(req: Request, i: nat, backwards: bool)
    ensures ReportsAt(req, i, backwards).Failure? <==> ReportsAt(req, i, !backwards).Failure?
    ensures ReportsAt(req, i, backwards).Failure? ==>
      ReportsAt(req, i, backwards).error.ColorMissing? || ReportsAt(req, i, backwards).error.BadColor?
  {
  }

  /** For a validated request and at most 8 colours, byte 4 of report 1 stays within 0..252. */
  lemma OffsetByteFits(req: Request, i: nat, backwards: bool)
    requires 1 <= req.speed <= 5 && 1 <= req.size <= 4 && i < 8
    requires ReportsAt(req, i, backwards).Success?
    ensures 0 <= ReportsAt(req, i, backwards).value[0][4] <= 252
  {
    ReportLayout(req, i, backwards);
  }

  // ---------------------------------------------------------------------------
  // The recursion over the colours of an array

  /** The reports written from colour `i` on, and the exception that ended the recursion, if any. */
  datatype Trace = Trace(log: seq<seq<int>>, thrown: Option<SmartError>)

  /** What one step of the recursion builds for colour `j` when it receives direction flag `b`. */
  type Step = (nat, bool) -> Result<seq<seq<int>>, SmartError>

  /** The step of `changeColor` for one validated request. */
  function StepOf(req: Request): Step
  {
    (j: nat, b: bool) => ReportsAt(req, j, b)
  }

  /**
   * The recursion as written, for `count` colours: the reports of colour
   * `i`, then, while colours remain, the call for `i + 1` with `moving` in
   * the place of `backwards` and `backwards` in the place of `moving`. An
   * exception ends it; nothing else can, because the recursive call
   * revalidates to the same request.
   */
  function Steps(step: Step, count: nat, i: nat, backwards: bool, moving: bool): (t: Trace)
    requires i < count
    ensures step(i, backwards).Failure? ==> t == Trace([], Some(step(i, backwards).error))
    ensures step(i, backwards).Success? ==> step(i, backwards).value <= t.log
    ensures t.thrown.None? ==> step(i, backwards).Success?
    decreases count - i
  {
    match step(i, backwards)
    case Failure(e) => Trace([], Some(e))
    case Success(rs) =>
      if i + 1 < count then
        var rest := Steps(step, count, i + 1, moving, backwards);
        Trace(rs + rest.log, rest.thrown)
      else Trace(rs, None)
  }

  /** The direction flag colour `j` is drawn with when the recursion starts at colour `start`: the caller's `backwards` when j - start is even, the caller's `moving` when it is odd. */
  function FlagAt(backwards: bool, moving: bool, start: nat, j: nat): bool
  {
    if (j - start) % 2 == 0 then backwards else moving
  }

  /** A reference for the recursion started at colour `start`, with the flag of every colour fixed in advance by `FlagAt`. */
  function ByParity(step: Step, count: nat, start: nat, i: nat, backwards: bool, moving: bool): Trace
    requires start <= i < count
    decreases count - i
  {
    match step(i, FlagAt(backwards, moving, start, i))
    case Failure(e) => Trace([], Some(e))
    case Success(rs) =>
      if i + 1 < count then
        var rest := ByParity(step, count, start, i + 1, backwards, moving);
        Trace(rs + rest.log, rest.thrown)
      else Trace(rs, None)
  }

  /** Swapping the two flags at every call is the same as alternating them by the parity of the number of calls made. */
  lemma {:induction false} SwapAlternates(step: Step, count: nat, start: nat, i: nat, backwards: bool, moving: bool)
    requires start <= i < count
    ensures Steps(step, count, i, FlagAt(backwards, moving, start, i), FlagAt(backwards, moving, start, i + 1))
         == ByParity(step, count, start, i, backwards, moving)
    decreases count - i
  {
    if step(i, FlagAt(backwards, moving, start, i)).Success? && i + 1 < count {
      SwapAlternates(step, count, start, i + 1, backwards, moving);
      assert FlagAt(backwards, moving, start, i + 2) == FlagAt(backwards, moving, start, i);
    }
  }

  /** The recursion revalidates its own arguments to the same request: the mode is now a known code, and speed and size are incremented back after being rebased. */
  lemma RecursionRevalidates(color: ColorArg, mode: ModeArg, speed: int, size: int, req: Request)
    requires Validate(color, mode, speed, size, false) == Success(req)
    ensures Validate(req.color, Code(req.mode), (req.speed - 1) + 1, (req.size - 1) + 1, false) == Success(req)
  {
  }

  /** Every report written from colour `i` on is one of the two reports of some colour `j >= i`, drawn with that colour's flag. */
  lemma {:induction false} ParityEntries(step: Step, count: nat, start: nat, i: nat, backwards: bool, moving: bool)
    requires start <= i < count
    ensures forall e :: e in ByParity(step, count, start, i, backwards, moving).log ==>
      exists j :: i <= j < count && step(j, FlagAt(backwards, moving, start, j)).Success?
                  && e in step(j, FlagAt(backwards, moving, start, j)).value
    decreases count - i
  {
    if step(i, FlagAt(backwards, moving, start, i)).Success? && i + 1 < count {
      ParityEntries(step, count, start, i + 1, backwards, moving);
    }
  }

  /** When every colour can be built, nothing is thrown and each colour from `i` on writes its two reports. */
  lemma {:induction false} AllReportsCount(step: Step, count: nat, start: nat, i: nat, backwards: bool, moving: bool)
    requires start <= i < count
    requires forall j :: i <= j < count ==>
      step(j, FlagAt(backwards, moving, start, j)).Success? && |step(j, FlagAt(backwards, moving, start, j)).value| == 2
    ensures ByParity(step, count, start, i, backwards, moving).thrown == None
    ensures |ByParity(step, count, start, i, backwards, moving).log| == 2 * (count - i)
    decreases count - i
  {
    if i + 1 < count {
      AllReportsCount(step, count, start, i + 1, backwards, moving);
    }
  }

  /** When every colour can be built, colour `j`'s two reports are at 2(j - i) and 2(j - i) + 1 of what is written from colour `i` on. */
  lemma {:induction false} ReportsPlaced(step: Step, count: nat, start: nat, i: nat, j: nat, backwards: bool, moving: bool)
    requires start <= i <= j < count
    requires forall j :: i <= j < count ==>
      step(j, FlagAt(backwards, moving, start, j)).Success? && |step(j, FlagAt(backwards, moving, start, j)).value| == 2
    ensures 2 * (j - i) + 1 < |ByParity(step, count, start, i, backwards, moving).log|
    ensures ByParity(step, count, start, i, backwards, moving).log[2 * (j - i)] == step(j, FlagAt(backwards, moving, start, j)).value[0]
    ensures ByParity(step, count, start, i, backwards, moving).log[2 * (j - i) + 1] == step(j, FlagAt(backwards, moving, start, j)).value[1]
    decreases j - i
  {
    var rs := step(i, FlagAt(backwards, moving, start, i)).value;
    if i + 1 < count {
      var rest := ByParity(step, count, start, i + 1, backwards, moving).log;
      if j > i {
        ReportsPlaced(step, count, start, i + 1, j, backwards, moving);
        var k := 2 * (j - (i + 1));
        assert 2 * (j - i) == k + 2;
        PairShift(rs, rest, k);
      }
    }
  }

  /** Behind one pair of reports, the reports that follow keep their order, two places further on. */
  lemma PairShift(rs: seq<seq<int>>, rest: seq<seq<int>>, k: nat)
    requires |rs| == 2 && k + 1 < |rest|
    ensures (rs + rest)[k + 2] == rest[k] && (rs + rest)[k + 3] == rest[k + 1]
  {
  }

  /** When every colour can be built, all reports go out in colour order and nothing is thrown: with two reports per colour, colour j's are at 2(j - i) and 2(j - i) + 1. */
  lemma AllReportsSent(step: Step, count: nat, start: nat, i: nat, backwards: bool, moving: bool)
    requires start <= i < count
    requires forall j :: i <= j < count ==>
      step(j, FlagAt(backwards, moving, start, j)).Success? && |step(j, FlagAt(backwards, moving, start, j)).value| == 2
    ensures var t := ByParity(step, count, start, i, backwards, moving);
      && t.thrown == None
      && |t.log| == 2 * (count - i)
      && forall j :: i <= j < count ==>
           t.log[2 * (j - i)] == step(j, FlagAt(backwards, moving, start, j)).value[0]
           && t.log[2 * (j - i) + 1] == step(j, FlagAt(backwards, moving, start, j)).value[1]
  {
    AllReportsCount(step, count, start, i, backwards, moving);
    forall j | i <= j < count
      ensures ByParity(step, count, start, i, backwards, moving).log[2 * (j - i)] == step(j, FlagAt(backwards, moving, start, j)).value[0]
      ensures ByParity(step, count, start, i, backwards, moving).log[2 * (j - i) + 1] == step(j, FlagAt(backwards, moving, start, j)).value[1]
    {
      ReportsPlaced(step, count, start, i, j, backwards, moving);
    }
  }

  /** The exception that ends the recursion, if any, is a failure of the step for some colour. */
  lemma {:induction false} StepsFailures(step: Step, count: nat, i: nat, backwards: bool, moving: bool)
    requires i < count
    ensures Steps(step, count, i, backwards, moving).thrown.Some? ==>
      exists j, b :: i <= j < count && step(j, b) == Failure(Steps(step, count, i, backwards, moving).thrown.value)
    decreases count - i
  {
    if step(i, backwards).Success? && i + 1 < count {
      StepsFailures(step, count, i + 1, moving, backwards);
    }
  }

  /** What a whole `changeColor` call writes, and how it ends. */
  datatype Effect = Effect(log: seq<seq<int>>, outcome: Outcome)

  /** A whole call started at colour `start` (the trailing `i` argument). */
  function ChangeColorEffect(color: ColorArg, mode: ModeArg, speed: int, size: int,
                             moving: bool, backwards: bool, custom: bool, start: nat): (e: Effect)
    ensures Validate(color, mode, speed, size, custom).Failure? ==>
      && e.log == []
      && (e.outcome.Thrown? <==> IsThrown(Validate(color, mode, speed, size, custom).error))
      && !e.outcome.Done? && e.outcome.error == Validate(color, mode, speed, size, custom).error
    ensures e.outcome.Returned? ==> e.log == [] && !IsThrown(e.outcome.error)
    ensures e.outcome == Done ==> Validate(color, mode, speed, size, custom).Success? && |e.log| >= 2
  {
    match Validate(color, mode, speed, size, custom)
    case Failure(e) => Effect([], if IsThrown(e) then Thrown(e) else Returned(e))
    case Success(req) =>
      var t := Steps(StepOf(req), FrameEnd(req.color, start), start, backwards, moving);
      Effect(t.log, if t.thrown.Some? then Thrown(t.thrown.value) else Done)
  }

  /** For any step that gives two reports for every colour it is offered by parity, the swapping recursion from `start` writes them all in colour order and returns. */
  lemma StepsAlternate(step: Step, count: nat, start: nat, backwards: bool, moving: bool)
    requires start < count
    requires forall j :: start <= j < count ==>
      step(j, FlagAt(backwards, moving, start, j)).Success? && |step(j, FlagAt(backwards, moving, start, j)).value| == 2
    ensures var t := Steps(step, count, start, backwards, moving);
      && t.thrown == None
      && |t.log| == 2 * (count - start)
      && forall j :: start <= j < count ==>
           t.log[2 * (j - start)] == step(j, FlagAt(backwards, moving, start, j)).value[0]
           && t.log[2 * (j - start) + 1] == step(j, FlagAt(backwards, moving, start, j)).value[1]
  {
    SwapAlternates(step, count, start, start, backwards, moving);
    assert FlagAt(backwards, moving, start, start) == backwards && FlagAt(backwards, moving, start, start + 1) == moving;
    AllReportsSent(step, count, start, start, backwards, moving);
  }

  /**
   * When every colour a request reaches from `start` decodes, the recursion
   * writes colour j's reports at 2(j - start) and 2(j - start) + 1, drawn
   * with `backwards` when j - start is even and `moving` when it is odd, and
   * returns.
   */
  lemma RequestAlternates(req: Request, start: nat, backwards: bool, moving: bool)
    requires forall j: nat, b: bool :: start <= j < FrameEnd(req.color, start) ==> ReportsAt(req, j, b).Success?
    ensures var t := Steps(StepOf(req), FrameEnd(req.color, start), start, backwards, moving);
      && t.thrown == None
      && |t.log| == 2 * (FrameEnd(req.color, start) - start)
      && forall j :: start <= j < FrameEnd(req.color, start) ==>
           t.log[2 * (j - start)] == ReportsAt(req, j, FlagAt(backwards, moving, start, j)).value[0]
           && t.log[2 * (j - start) + 1] == ReportsAt(req, j, FlagAt(backwards, moving, start, j)).value[1]
  {
    StepsAlternate(StepOf(req), FrameEnd(req.color, start), start, backwards, moving);
  }

  /**
   * When every colour a validated request reaches decodes, both reports of
   * every colour go out, colour j's drawn with the caller's `backwards` when
   * j - start is even and with the caller's `moving` when it is odd, and the
   * call returns.
   */
  lemma DirectionAlternates(color: ColorArg, mode: ModeArg, speed: int, size: int, moving: bool, backwards: bool, start: nat)
    requires Validate(color, mode, speed, size, false).Success?
    requires var req := Validate(color, mode, speed, size, false).value;
      forall j: nat, b: bool :: start <= j < FrameEnd(req.color, start) ==> ReportsAt(req, j, b).Success?
    ensures var req, e := Validate(color, mode, speed, size, false).value, ChangeColorEffect(color, mode, speed, size, moving, backwards, false, start);
      && e.outcome == Done
      && |e.log| == 2 * (FrameEnd(req.color, start) - start)
      && forall j :: start <= j < FrameEnd(req.color, start) ==>
           e.log[2 * (j - start)] == ReportsAt(req, j, FlagAt(backwards, moving, start, j)).value[0]
           && e.log[2 * (j - start) + 1] == ReportsAt(req, j, FlagAt(backwards, moving, start, j)).value[1]
  {
    RequestAlternates(Validate(color, mode, speed, size, false).value, start, backwards, moving);
  }

  /** A refused request writes nothing; a validated one either returns or is stopped by a colour that is missing or does not decode. */
  lemma RefusedWritesNothing(color: ColorArg, mode: ModeArg, speed: int, size: int, moving: bool, backwards: bool, custom: bool, start: nat)
    ensures var e := ChangeColorEffect(color, mode, speed, size, moving, backwards, custom, start);
      && (Validate(color, mode, speed, size, custom).Failure? ==> e.log == [] && !e.outcome.Done?)
      && (e.outcome.Returned? ==> e.log == [] && !IsThrown(e.outcome.error))
      && (Validate(color, mode, speed, size, custom).Success? ==>
            (e.outcome.Done? || (e.outcome.Thrown? && (e.outcome.error.ColorMissing? || e.outcome.error.BadColor?))))
  {
    var v := Validate(color, mode, speed, size, custom);
    if v.Success? {
      var step, count := StepOf(v.value), FrameEnd(v.value.color, start);
      StepsFailures(step, count, start, backwards, moving);
      var t := Steps(step, count, start, backwards, moving);
      if t.thrown.Some? {
        var j, b :| start <= j < count && step(j, b) == Failure(t.thrown.value);
        ReportFailures(v.value, j, b);
      }
    }
  }

  /** A string colour in alternating mode never gets a report out: a length other than 2 is refused, and a length of 2 is not a colour. */
  lemma AlternatingStringWritesNothing(s: string, mode: ModeArg, speed: int, size: int, moving: bool, backwards: bool, start: nat)
    requires ResolveMode(mode) == Some(0x05)
    ensures ChangeColorEffect(Hex(s), mode, speed, size, moving, backwards, false, start).log == []
    ensures !ChangeColorEffect(Hex(s), mode, speed, size, moving, backwards, false, start).outcome.Done?
  {
    var v := Validate(Hex(s), mode, speed, size, false);
    if v.Success? {
      assert |StripHash(s)| != 6;
      assert ReportsAt(v.value, start, backwards) == Failure(BadColor(InvalidHexLength));
    }
  }

  // ---------------------------------------------------------------------------
  // Fan speed

  datatype FanError =
    | InvalidFan      // "Fan must be a value between 1 and 3 (0 to control all 3 fans)."
    | InvalidPercent  // "Percent must be a value between 0 and 100."

  /** The 65-byte fan frame: [0x02, 0x4D, fan index, 0x00, percent] and 60 zero bytes. */
  function FanFrame(index: int, percent: int): (f: seq<int>)
    ensures |f| == 65 && f[..5] == [0x02, 0x4d, index, 0x00, percent]
    ensures forall k :: 5 <= k < 65 ==> f[k] == 0
  {
    [0x02, 0x4d, index, 0x00, percent] + Zeros(60)
  }

  /** What `setFanSpeed` writes: nothing when it refuses, a frame per fan for fan 0, else the frame of fan `fan - 1`. */
  function FanWrites(fan: int, percent: int): (w: seq<seq<int>>)
    ensures w == [] <==> !(0 <= fan <= 3 && 0 <= percent <= 100)
    ensures w != [] ==> |w| == (if fan == 0 then 3 else 1)
    ensures forall k :: 0 <= k < |w| ==> w[k] == FanFrame(if fan == 0 then k else fan - 1, percent)
  {
    if fan < 0 || fan > 3 || percent < 0 || percent > 100 then []
    else if fan == 0 then [FanFrame(0, percent), FanFrame(1, percent), FanFrame(2, percent)]
    else [FanFrame(fan - 1, percent)]
  }

  /** Every fan frame has 65 bytes and carries the percent; fan 0 addresses each of the three fans once, fan k only index k - 1. */
  lemma FanFramesShape(fan: int, percent: int)
    ensures var w := FanWrites(fan, percent);
      && (w != [] <==> 0 <= fan <= 3 && 0 <= percent <= 100)
      && (forall f :: f in w ==> |f| == 65 && f[..2] == [0x02, 0x4d] && f[3] == 0 && f[4] == percent
                                 && 0 <= f[2] <= 2 && forall k :: 5 <= k < 65 ==> f[k] == 0)
      && (w != [] && fan == 0 ==> |w| == 3 && forall idx :: 0 <= idx < 3 ==> w[idx][2] == idx)
      && (w != [] && fan != 0 ==> |w| == 1 && w[0][2] == fan - 1)
  {
  }

  // ---------------------------------------------------------------------------
  // The device

  class SmartDevice {
    /** Every report written to the HID handle, oldest first. */
    var written: seq<seq<int>>

    constructor ()
      ensures written == []
    {
      written := [];
    }

    /**
     * `changeColor`: validate, then from colour `start` (the trailing `i`
     * argument) on build and write both reports of each colour, swapping
     * `moving` and `backwards` at each recursive call.
     */
    method ChangeColor(color: ColorArg, mode: ModeArg, speed: int, size: int,
                       moving: bool, backwards: bool, custom: bool, start: nat) returns (outcome: Outcome)
      modifies this
      ensures var e := ChangeColorEffect(color, mode, speed, size, moving, backwards, custom, start);
        written == old(written) + e.log && outcome == e.outcome
    {
      var v := Validate(color, mode, speed, size, custom);
      if v.Failure? {
        return if IsThrown(v.error) then Thrown(v.error) else Returned(v.error);
      }
      outcome := SendReports(v.value, start, backwards, moving);
    }

    /**
     * The reports of a validated request from colour `i` on, following the
     * recursion of `changeColor`: write colour `i`'s reports with the flag
     * this call received, then, when the palette has a colour after `i`, make
     * the call for colour `i + 1` with `moving` and `backwards` swapped. An
     * exception from a colour ends the sequence.
     */
    method SendReports(req: Request, i: nat, backwards: bool, moving: bool) returns (outcome: Outcome)
      modifies this
      ensures var t := Steps(StepOf(req), FrameEnd(req.color, i), i, backwards, moving);
        written == old(written) + t.log && outcome == if t.thrown.Some? then Thrown(t.thrown.value) else Done
      decreases FrameEnd(req.color, i) - i
    {
      var reports := WriteColor(req, i, backwards);
      assert StepOf(req)(i, backwards) == reports;
      if reports.Failure? {
        return Thrown(reports.error);
      }
      if !HasNext(req.color, i) {
        return Done;
      }
      outcome := SendReports(req, i + 1, moving, backwards);
      AppendAssoc(old(written), reports.value, Steps(StepOf(req), FrameEnd(req.color, i), i + 1, moving, backwards).log);
    }

    /** One colour of the recursion: build both reports, then write report 1 and report 2; a colour that cannot be built writes nothing. */
    method WriteColor(req: Request, i: nat, backwards: bool) returns (reports: Result<seq<seq<int>>, SmartError>)
      modifies this
      ensures reports == ReportsAt(req, i, backwards)
      ensures written == old(written) + if reports.Success? then reports.value else []
    {
      reports := BuildReports(req, i, backwards);
      if reports.Success? {
        written := written + [reports.value[0]];
        written := written + [reports.value[1]];
        assert reports.value == [reports.value[0], reports.value[1]];
      }
    }

    /** `setFanSpeed`: check the fan and the percent, then write one frame per addressed fan. */
    method SetFanSpeed(fan: int, percent: int) returns (error: Option<FanError>)
      modifies this
      ensures written == old(written) + FanWrites(fan, percent)
      ensures error == if fan < 0 || fan > 3 then Some(InvalidFan)
                       else if percent < 0 || percent > 100 then Some(InvalidPercent)
                       else None
    {
      if fan < 0 || fan > 3 {
        return Some(InvalidFan);
      }
      if percent < 0 || percent > 100 {
        return Some(InvalidPercent);
      }
      if fan == 0 {
        var i := 0;
        while i < 3
          invariant 0 <= i <= 3
          invariant written == old(written) + FanWrites(0, percent)[..i]
        {
          written := written + [FanFrame(i, percent)];
          i := i + 1;
        }
      } else {
        written := written + [FanFrame(fan - 1, percent)];
      }
      return None;
    }

    /** The shortcuts discard what `changeColor` returns, so only an exception reaches their caller. */
    method Shortcut(color: ColorArg, mode: int, speed: int, size: int, moving: bool, backwards: bool, custom: bool)
      returns (thrown: Option<SmartError>)
      modifies this
      ensures var e := ChangeColorEffect(color, Code(mode), speed, size, moving, backwards, custom, 0);
        written == old(written) + e.log && thrown == if e.outcome.Thrown? then Some(e.outcome.error) else None
    {
      var outcome := ChangeColor(color, Code(mode), speed, size, moving, backwards, custom, 0);
      thrown := if outcome.Thrown? then Some(outcome.error) else None;
    }

    /** `fixed(color, custom)`: speed and size 0, which become 1. */
    method Fixed(color: ColorArg, custom: bool) returns (thrown: Option<SmartError>)
      modifies this
      ensures var e := ChangeColorEffect(color, Code(0x00), 0, 0, false, false, custom, 0);
        written == old(written) + e.log && thrown == if e.outcome.Thrown? then Some(e.outcome.error) else None
    {
      thrown := Shortcut(color, 0x00, 0, 0, false, false, custom);
    }

    /** `fading(color, speed = 3)` */
    method Fading(color: ColorArg, speed: int) returns (thrown: Option<SmartError>)
      modifies this
      ensures var e := ChangeColorEffect(color, Code(0x01), speed, 3, false, false, false, 0);
        written == old(written) + e.log && thrown == if e.outcome.Thrown? then Some(e.outcome.error) else None
    {
      thrown := Shortcut(color, 0x01, speed, 3, false, false, false);
    }

    /** `spectrum(speed = 3, backwards = false)`: white, by number, so no blue substitution. */
    method Spectrum(speed: int, backwards: bool) returns (thrown: Option<SmartError>)
      modifies this
      ensures var e := ChangeColorEffect(Hex("ffffff"), Code(0x02), speed, 0, false, backwards, false, 0);
        written == old(written) + e.log && thrown == if e.outcome.Thrown? then Some(e.outcome.error) else None
    {
      thrown := Shortcut(Hex("ffffff"), 0x02, speed, 0, false, backwards, false);
    }

    /** `marquee(color, speed = 3, size = 3, backwards = false)` */
    method Marquee(color: ColorArg, speed: int, size: int, backwards: bool) returns (thrown: Option<SmartError>)
      modifies this
      ensures var e := ChangeColorEffect(color, Code(0x03), speed, size, false, backwards, false, 0);
        written == old(written) + e.log && thrown == if e.outcome.Thrown? then Some(e.outcome.error) else None
    {
      thrown := Shortcut(color, 0x03, speed, size, false, backwards, false);
    }

    /** `coveringMarquee(color, speed = 3, backwards = false)` */
    method CoveringMarquee(color: ColorArg, speed: int, backwards: bool) returns (thrown: Option<SmartError>)
      modifies this
      ensures var e := ChangeColorEffect(color, Code(0x04), speed, 0, false, backwards, false, 0);
        written == old(written) + e.log && thrown == if e.outcome.Thrown? then Some(e.outcome.error) else None
    {
      thrown := Shortcut(color, 0x04, speed, 0, false, backwards, false);
    }

    /** `alternating(color, speed = 3, size = 3, moving = false, backwards = false)` */
    method Alternating(color: ColorArg, speed: int, size: int, moving: bool, backwards: bool) returns (thrown: Option<SmartError>)
      modifies this
      ensures var e := ChangeColorEffect(color, Code(0x05), speed, size, moving, backwards, false, 0);
        written == old(written) + e.log && thrown == if e.outcome.Thrown? then Some(e.outcome.error) else None
    {
      thrown := Shortcut(color, 0x05, speed, size, moving, backwards, false);
    }

    /** `pulse(color, speed = 3)` */
    method Pulse(color: ColorArg, speed: int) returns (thrown: Option<SmartError>)
      modifies this
      ensures var e := ChangeColorEffect(color, Code(0x06), speed, 3, false, false, false, 0);
        written == old(written) + e.log && thrown == if e.outcome.Thrown? then Some(e.outcome.error) else None
    {
      thrown := Shortcut(color, 0x06, speed, 3, false, false, false);
    }

    /** `breathing(color, speed = 3, custom = false)` */
    method Breathing(color: ColorArg, speed: int, custom: bool) returns (thrown: Option<SmartError>)
      modifies this
      ensures var e := ChangeColorEffect(color, Code(0x07), speed, 0, false, false, custom, 0);
        written == old(written) + e.log && thrown == if e.outcome.Thrown? then Some(e.outcome.error) else None
    {
      thrown := Shortcut(color, 0x07, speed, 0, false, false, custom);
    }

    /** `candle(color)`: speed and size keep their defaults of 3. */
    method Candle(color: ColorArg) returns (thrown: Option<SmartError>)
      modifies this
      ensures var e := ChangeColorEffect(color, Code(0x09), 3, 3, false, false, false, 0);
        written == old(written) + e.log && thrown == if e.outcome.Thrown? then Some(e.outcome.error) else None
    {
      thrown := Shortcut(color, 0x09, 3, 3, false, false, false);
    }

    /** `wings(color, speed = 3)` */
    method Wings(color: ColorArg, speed: int) returns (thrown: Option<SmartError>)
      modifies this
      ensures var e := ChangeColorEffect(color, Code(0x0c), speed, 3, false, false, false, 0);
        written == old(written) + e.log && thrown == if e.outcome.Thrown? then Some(e.outcome.error) else None
    {
      thrown := Shortcut(color, 0x0c, speed, 3, false, false, false);
    }

    /** `wave(color, speed = 3)`: always a custom request, so it is always refused and writes nothing. */
    method Wave(color: ColorArg, speed: int) returns (thrown: Option<SmartError>)
      modifies this
      ensures written == old(written)
      ensures thrown == None
    {
      WaveWritesNothing(color, speed);
      thrown := Shortcut(color, 0x0d, speed, 0, false, false, true);
    }
  }

  /** `wave()` is a custom request, so it is refused by a returned error: nothing is written and nothing is thrown. */
  lemma WaveWritesNothing(color: ColorArg, speed: int)
    ensures ChangeColorEffect(color, Code(0x0d), speed, 0, false, false, true, 0).log == []
    ensures ChangeColorEffect(color, Code(0x0d), speed, 0, false, false, true, 0).outcome.Returned?
  {
    CustomAlwaysRejected(color, Code(0x0d), speed, 0);
  }

  /** "ffffff" is white: all three bytes 0xFF. */
  lemma WhiteDecodes()
    ensures HexToGRB("ffffff") == Success([0xff, 0xff, 0xff])
  {
    PairValue("ff");
    DecodesGreenRedBlue("ffffff");
  }

  /** The two reports of white carry 0xFF in every colour byte. */
  lemma WhitePair(mode: int, backwards: bool, speed: int, size: int)
    ensures var white := [0xff, 0xff, 0xff];
      var r1, r2 := ReportOne(mode, backwards, 0, speed, size, Repeat(white, 40)), ReportTwo(Repeat(white, 40), white);
      && |r1| == 125 && |r2| == 125
      && r1[..5] == [0x02, 0x4b, mode, if backwards then 0x10 else 0x00, speed + 8 * size]
      && (forall k :: 5 <= k < 125 ==> r1[k] == 0xff)
      && (forall k :: 1 <= k < 124 ==> r2[k] == 0xff)
  {
    var white := [0xff, 0xff, 0xff];
    var r1, r2 := ReportOne(mode, backwards, 0, speed, size, Repeat(white, 40)), ReportTwo(Repeat(white, 40), white);
    ReportPair(mode, backwards, 0, speed, size, white);
    forall k | 1 <= k < 124
      ensures r2[k] == 0xff
    {
      if k < 121 {
        assert r2[k] == r2[1..121][k - 1] == r1[5..][k - 1] == r1[k + 4];
      } else {
        assert r2[k] == r2[121..124][k - 121];
      }
    }
  }

  /** The call `spectrum()` makes validates to one request whose single colour gives one pair of reports, and it returns. */
  lemma SpectrumEffect(white: string, speed: int, backwards: bool)
    requires HexToGRB(white) == Success([0xff, 0xff, 0xff])
    requires 0 <= speed <= 5
    ensures var grb := [0xff, 0xff, 0xff];
      ChangeColorEffect(Hex(white), Code(0x02), speed, 0, false, backwards, false, 0)
      == Effect([ReportOne(0x02, backwards, 0, BumpZero(speed) - 1, 0, Repeat(grb, 40)), ReportTwo(Repeat(grb, 40), grb)], Done)
  {
    var req := Validate(Hex(white), Code(0x02), speed, 0, false).value;
    assert req == Request(Hex(white), 0x02, BumpZero(speed), 1);
    var grb := [0xff, 0xff, 0xff];
    var rs := [ReportOne(0x02, backwards, 0, BumpZero(speed) - 1, 0, Repeat(grb, 40)), ReportTwo(Repeat(grb, 40), grb)];
    assert ReportsAt(req, 0, backwards) == Success(rs);
    assert Steps(StepOf(req), 1, 0, backwards, false) == Trace(rs, None);
  }

  /**
   * `spectrum()` with a valid speed sends its colour by number, so the colour
   * is kept: one pair of reports with 0xFF in every colour byte, and the size
   * byte of size 1. `WhiteDecodes` shows that the "ffffff" it passes is such
   * a colour.
   */
  lemma SpectrumSendsWhite(white: string, speed: int, backwards: bool)
    requires HexToGRB(white) == Success([0xff, 0xff, 0xff])
    requires 0 <= speed <= 5
    ensures var e := ChangeColorEffect(Hex(white), Code(0x02), speed, 0, false, backwards, false, 0);
      && e.outcome == Done && |e.log| == 2 && |e.log[0]| == 125 && |e.log[1]| == 125
      && e.log[0][..5] == [0x02, 0x4b, 0x02, if backwards then 0x10 else 0x00, BumpZero(speed) - 1]
      && (forall k :: 5 <= k < 125 ==> e.log[0][k] == 0xff)
      && (forall k :: 1 <= k < 124 ==> e.log[1][k] == 0xff)
  {
    SpectrumEffect(white, speed, backwards);
    WhitePair(0x02, backwards, BumpZero(speed) - 1, 0);
  }
}

=== FILE: util.dfy ===
/**
 * The colour codec of lib/util.js: `hexToGRB` turns "#RRGGBB" or "RRGGBB"
 * into the three bytes both controllers expect, green first.
 */
module Util {
  import opened Common

  /** The two strings `hexToGRB` throws. */
  datatype CodecError =
    | InvalidHexLength   // "Invalid hex specified."
    | InvalidHexCode     // "Invalid hex code entered"

  predicate IsHexDigit(c: char)
  {
    ('0' <= c <= '9') || ('a' <= c <= 'f') || ('A' <= c <= 'F')
  }

  predicate AllHex(d: string)
  {
    forall j :: 0 <= j < |d| ==> IsHexDigit(d[j])
  }

  function DigitValue(c: char): (v: nat)
    requires IsHexDigit(c)
    ensures v < 16
  {
    if '0' <= c <= '9' then c as int - '0' as int
    else if 'a' <= c <= 'f' then c as int - 'a' as int + 10
    else c as int - 'A' as int + 10
  }

  function Pow16(n: nat): (p: nat)
  {
    if n == 0 then 1 else 16 * Pow16(n - 1)
  }

  lemma {:induction false} Pow16Monotone(m: nat, n: nat)
    requires m <= n
    ensures Pow16(m) <= Pow16(n)
    decreases n
  {
    if m < n {
      Pow16Monotone(m, n - 1);
    }
  }

  /** Length of the run of hex digits at the start of `s`. */
  function HexRun(s: string): (n: nat)
    ensures n <= |s|
    ensures forall j :: 0 <= j < n ==> IsHexDigit(s[j])
    ensures n < |s| ==> !IsHexDigit(s[n])
  {
    if s == [] || !IsHexDigit(s[0]) then 0 else 1 + HexRun(s[1..])
  }

  /** Value of a string of hex digits, most significant digit first. */
  function HexValue(d: string): (v: nat)
    requires AllHex(d)
    ensures v < Pow16(|d|)
  {
    if d == [] then 0 else 16 * HexValue(d[..|d| - 1]) + DigitValue(d[|d| - 1])
  }

  /** `parseInt` with radix 16 drops a leading "0x" or "0X" before it reads digits. */
  predicate HasHexPrefix(s: string)
  {
    |s| >= 2 && s[0] == '0' && (s[1] == 'x' || s[1] == 'X')
  }

  /**
   * `parseInt(s, 16)` for a string with no leading white space or sign: the
   * "0x" prefix is dropped, then the longest run of hex digits is read; when
   * there is no digit at all the result is NaN (None).
   */
  function ParseHex(s: string): (r: Option<nat>)
    ensures r.Some? ==> r.value < Pow16(|s|)
  {
    var t := if HasHexPrefix(s) then s[2..] else s;
    var n := HexRun(t);
    if n == 0 then None
    else
      Pow16Monotone(n, |s|);
      Some(HexValue(t[..n]))
  }

  /** `hex.charAt(0) === "#"` then `hex.slice(1)`: one leading "#" is dropped. */
  function StripHash(hex: string): (s: string)
    ensures |hex| > 0 && hex[0] == '#' ==> "#" + s == hex
    ensures !(|hex| > 0 && hex[0] == '#') ==> s == hex
  {
    if |hex| > 0 && hex[0] == '#' then hex[1..] else hex
  }

  /**
   * `parseInt(p, 16)` for a two-character pair, case by case: "0x" leaves no
   * digit, a first character that is no digit gives NaN, and a second one that
   * is no digit is not read. `PairValue` shows this is `ParseHex` on pairs.
   */
  function ReadPair(p: string): (r: Option<nat>)
    requires |p| == 2
    ensures r.Some? ==> r.value < 256
  {
    if HasHexPrefix(p) || !IsHexDigit(p[0]) then None
    else if IsHexDigit(p[1]) then Some(16 * DigitValue(p[0]) + DigitValue(p[1]))
    else Some(DigitValue(p[0]))
  }

  /**
   * `hexToGRB`: drop one "#", insist on six characters, read the pairs at
   * 0-1, 2-3 and 4-5 as red, green and blue, and answer [g, r, b].
   */
  function HexToGRB(hex: string): (r: Result<seq<int>, CodecError>)
    ensures r.Success? ==> |r.value| == 3 && forall j :: 0 <= j < 3 ==> 0 <= r.value[j] < 256
    ensures r == Failure(InvalidHexLength) <==> |StripHash(hex)| != 6
  {
    var h := StripHash(hex);
    if |h| != 6 then Failure(InvalidHexLength)
    else
      var red, green, blue := ReadPair(h[0..2]), ReadPair(h[2..4]), ReadPair(h[4..6]);
      if green.None? || red.None? || blue.None? then Failure(InvalidHexCode)
      else Success([green.value, red.value, blue.value])
  }

  /** A pair `parseInt(…, 16)` can read at least one digit of. */
  predicate Readable(p: string)
    requires |p| == 2
  {
    IsHexDigit(p[0]) && !HasHexPrefix(p)
  }

  /** `parseInt(p, 16)` on a pair: both digits read as 16 * hi + lo, a digit followed by a non-digit reads as that digit, and NaN exactly when the pair is not readable; this is `ReadPair`. */
  lemma PairValue(p: string)
    requires |p| == 2
    ensures IsHexDigit(p[0]) && IsHexDigit(p[1]) ==> ParseHex(p) == Some(16 * DigitValue(p[0]) + DigitValue(p[1]))
    ensures Readable(p) && !IsHexDigit(p[1]) ==> ParseHex(p) == Some(DigitValue(p[0]))
    ensures ParseHex(p).Some? <==> Readable(p)
    ensures ParseHex(p) == ReadPair(p)
  {
    if Readable(p) {
      assert HexRun(p[1..]) == (if IsHexDigit(p[1]) then 1 else 0);
      if IsHexDigit(p[1]) {
        assert p[..2] == p && p[..2][..1] == [p[0]];
        assert HexValue([p[0]]) == DigitValue(p[0]) by {
          assert [p[0]][..0] == [];
        }
      } else {
        assert p[..1] == [p[0]] && p[..1][..0] == [];
      }
    }
  }

  /** `hexToGRB` succeeds exactly when six characters remain and every pair starts with a readable hex digit. */
  lemma AcceptsExactly(hex: string)
    ensures HexToGRB(hex).Success? <==>
      var h := StripHash(hex);
      |h| == 6 && Readable(h[0..2]) && Readable(h[2..4]) && Readable(h[4..6])
  {
    var h := StripHash(hex);
    if |h| == 6 {
      PairValue(h[0..2]);
      PairValue(h[2..4]);
      PairValue(h[4..6]);
    }
  }

  /** The byte written by the hex pair at positions k and k + 1 of `h`. */
  function PairByte(h: string, k: nat): int
    requires k + 1 < |h| && IsHexDigit(h[k]) && IsHexDigit(h[k + 1])
  {
    16 * DigitValue(h[k]) + DigitValue(h[k + 1])
  }

  /** Six hex digits decode to [green, red, blue] = [pair 2-3, pair 0-1, pair 4-5]. */
  lemma DecodesGreenRedBlue(hex: string)
    requires |StripHash(hex)| == 6 && AllHex(StripHash(hex))
    ensures var h := StripHash(hex);
      HexToGRB(hex) == Success([PairByte(h, 2), PairByte(h, 0), PairByte(h, 4)])
  {
    var h := StripHash(hex);
    PairValue(h[0..2]);
    PairValue(h[2..4]);
    PairValue(h[4..6]);
  }

  /** A "#" in front of six characters that do not themselves start with "#" changes nothing. */
  lemma HashIsOptional(h: string)
    requires |h| == 6 && h[0] != '#'
    ensures HexToGRB("#" + h) == HexToGRB(h)
  {
    assert StripHash("#" + h) == h;
    assert StripHash(h) == h;
  }

  /** Only one "#" is stripped: "##" followed by five characters is refused, as is the six-character "#xxxxx". */
  lemma SecondHashRejected(h: string)
    requires |h| == 6 && h[0] == '#'
    ensures HexToGRB("#" + h) == Failure(InvalidHexCode)
    ensures HexToGRB(h) == Failure(InvalidHexLength)
  {
    assert StripHash("#" + h) == h;
    PairValue(h[0..2]);
  }

  /** The hex digit for a value below 16, lower case. */
  function HexDigit(v: nat): (c: char)
    requires v < 16
    ensures IsHexDigit(c) && DigitValue(c) == v
  {
    if v < 10 then ('0' as int + v) as char else ('a' as int + v - 10) as char
  }

  /** The six-digit form "RRGGBB" of a colour. */
  function ToHex(red: nat, green: nat, blue: nat): (s: string)
    requires red < 256 && green < 256 && blue < 256
    ensures |s| == 6 && AllHex(s) && s[0] != '#'
  {
    [HexDigit(red / 16), HexDigit(red % 16), HexDigit(green / 16), HexDigit(green % 16),
     HexDigit(blue / 16), HexDigit(blue % 16)]
  }

  /** Encoding a colour as "RRGGBB" or "#RRGGBB" and decoding it gives back its bytes in device order. */
  lemma RoundTrip(red: nat, green: nat, blue: nat)
    requires red < 256 && green < 256 && blue < 256
    ensures HexToGRB(ToHex(red, green, blue)) == Success([green, red, blue])
    ensures HexToGRB("#" + ToHex(red, green, blue)) == Success([green, red, blue])
  {
    var s := ToHex(red, green, blue);
    assert StripHash(s) == s;
    DecodesGreenRedBlue(s);
    HashIsOptional(s);
  }
}
